=== FILE: README.md ===
# Assertifier and JaQL in Dafny

This project models two small Java utilities and proves properties about them.

**The Assertifier** (`src/Assertifier.java`) takes any object and a name. It walks the object's
public getters and writes the JUnit source lines that would pin the object down. The walk follows
a recursive pattern:

- `Assert.assertNotNull(name);` for the root;
- `Assert.assertEquals(Integer.valueOf(3), ((Integer)name.getCount()));` for each Integer, Long,
  String, Enum and Boolean it reaches;
- `Assert.assertNull(...)` for null results, when `includeNull` is set;
- `Assert.assertEquals(n, path.size());` for lists, and then each element at
  `((SimpleName)path.get(i))`.

A `HashSet` of values already traversed stops the walk from repeating a list, composite, Boolean
or Date value, and so cuts every cycle that passes through a composite object. String, Integer,
Long and Enum values are never put into the set, so they are reported again each time they are
reached. A list that contains itself, directly or only through other lists, is not stopped by the
set in Java: the `contains` check hashes the list by its contents and overflows the stack (see
"Left out").

**JaQL** (`src/de/jenswurm/tools/JaQL.java`) groups a list into a map by a key function
(`groupBy`). It also joins two lists on keys computed from each side:

- `innerJoin` returns the matching pairs.
- `leftJoin` returns the matching pairs, plus one tuple with `right = null` for each left element
  with no partner.

## How the model is built

**Reflection becomes an explicit heap** (`Assertifier.Heap`). A heap node is one of two things:

- a list of `Value`s;
- a composite object with its class names and its public methods.

The methods appear in the order reflection lists them. Each has a name, a parameter count and an
`Invocation`: return a value, or throw. A value is one of:

- null;
- an Integer or Long, within the 32- and 64-bit ranges;
- a String;
- an Enum constant, given by its runtime class and its `toString` text;
- a Boolean;
- a Date;
- a reference to a heap object.

**`equals` is modelled with `equalsClass`.** The already-traversed set is a `HashSet`, so
membership goes through `equals`, not identity. Every heap node carries an `equalsClass`, and two
objects with the same class are equal. Values that are not heap objects are compared by value.

**The output is a pure function.** It is a sequence of structured `Line`s. `RenderAll` turns it
into the exact text, with the `\r\n` line ends the code writes. `Assertify` returns two things:

- the text, or the `RuntimeException` that a null list element raises;
- the instance afterwards, whose traversed set has grown and is never cleared.

**Termination** is measured by the number of heap objects, up to `equals`, not yet traversed.
Each object is added to the set before it is descended into.

**In JaQL, the `HashMap` iteration order is a parameter.** Java leaves that order unspecified.
Here it is `order`, any duplicate-free enumeration of the left keys. Every join property is
therefore stated per key (`ByKey`) or as a multiset.

Integers are rendered in decimal by `Decimal.IntToString`. `Decimal.ParseInt` reads them back.

Points of `Assertifier.java` that are easy to misread:

- Membership in the traversed set uses `equals`, not identity (`src/Assertifier.java:154`).
- The root's traversed check comes before its `assertNotNull`. An already-traversed root
  therefore prints nothing at all (`src/Assertifier.java:153-165`).
- Boolean and Date values are put into the traversed set too, not only lists and composites
  (`src/Assertifier.java:214-228`).
- The ignore set belongs to the instance (`src/Assertifier.java:44`). Only `includeIds` is static
  (`src/Assertifier.java:17`).
- The size line reads `path.size()` (`src/Assertifier.java:264`).

## Model

| member | source | states |
|---|---|---|
| Assertifier.New | src/Assertifier.java:38-44 | a fresh instance has every flag off, no ignored classes and an empty traversed set |
| Assertifier.IncludeNull | src/Assertifier.java:49-52 | sets includeNull and changes nothing else, the traversed set included |
| Assertifier.IncludeEmptyLists | src/Assertifier.java:58-61 | sets includeEmptyLists and changes nothing else |
| Assertifier.IncludeIds | src/Assertifier.java:68-71 | sets includeIds and changes nothing else |
| Assertifier.Ignore | src/Assertifier.java:73-76 | a class is ignored afterwards iff it was ignored before or is among the arguments; nothing else changes |
| Assertifier.IsRelevantGetter | src/Assertifier.java:19-36 | a method is traversed iff its name starts with "get", it takes no parameters, it is not getClass or one of the twelve denylisted names, and it is not getId unless includeIds is set |
| Assertifier.Invoke | src/Assertifier.java:275-280 | a getter that throws is treated as one that returned null |
| Assertifier.AddToAlreadyTraversed | src/Assertifier.java:213-228 | String, Integer, Long and Enum values are never inserted; every other non-null value is, under its equals key; the set never gains an exempt key |
| Assertifier.PathPrimitive | src/Assertifier.java:117-122 | with no method (root or list element) the path is unchanged |
| Assertifier.PathWithCast | src/Assertifier.java:124-130 | with no method the path is unchanged; otherwise it is the plain getter path, parenthesised and cast to the result's simple name |
| Assertifier.ProcessResult | src/Assertifier.java:150-193 | the traversed set only grows and never gains an exempt key; a non-null value already in the set yields nothing and changes nothing, even at the root; every other non-null non-exempt value is in the set afterwards; at the root, a value not yet traversed whose walk succeeds starts with assertNotNull(path); RootWalk gives the rest |
| Assertifier.RootWalk | src/Assertifier.java:161-189 | at the root, a value not yet traversed yields assertNotNull(path) followed by exactly the non-root walk of the same value at the same path, with the same traversed set afterwards |
| Assertifier.Traverse | src/Assertifier.java:253-297 | an object that is skipped yields no lines for its whole subtree; the traversed set only grows; ListStartsWithSizeLine shows that a list's lines are its size line followed by its elements' lines; LeafCompositeLines gives a composite's lines in method order |
| Assertifier.TraverseElements | src/Assertifier.java:266-271 | the traversed set only grows and never gains an exempt key; ObjectElementStep, BooleanAndDateElementStep and ExemptElementsFrom give what each kind of element i contributes at ((SimpleName)path.get(i)) |
| AssertifierProperties.ListStartsWithSizeLine | src/Assertifier.java:260-271 | a list that is not skipped yields its size line (when non-empty or includeEmptyLists), then exactly the lines of its elements; it fails exactly when an element fails |
| AssertifierProperties.ObjectElementStep | src/Assertifier.java:266-270 | a list or composite element not yet traversed is marked, then traversed at ((SimpleName)path.get(i)); its lines come before those of the later elements, which are walked with it marked |
| AssertifierProperties.BooleanAndDateElementStep | src/Assertifier.java:266-270 | a Boolean element not yet traversed yields Boolean.valueOf(b) against Boolean.valueOf(((Boolean)path.get(i))), a Date element yields nothing; either is marked before the later elements are walked |
| Assertifier.TraverseGetters | src/Assertifier.java:273-294 | the traversed set only grows and never gains an exempt key; LeafGettersFrom shows the lines are each getter's lines in method order |
| AssertifierProperties.LeafGetterStep | src/Assertifier.java:274-286 | a method returning null, throwing, or returning a String, Integer, Long or Enum contributes nothing unless it is a relevant getter, else assertNull(path.m()) under includeNull or the assertEquals of its literal, and marks nothing |
| AssertifierProperties.LeafGettersFrom | src/Assertifier.java:273-294 | from method i on, such getters contribute their lines one after the other in the order the methods are listed, and the traversed set is unchanged |
| AssertifierProperties.LeafCompositeLines | src/Assertifier.java:253-297 | a composite that is not skipped, with only such getters, yields exactly the concatenation of its relevant getters' lines in method order |
| Assertifier.GetterStep | src/Assertifier.java:274-293 | a method that is not a relevant getter is neither invoked nor reported |
| Assertifier.Assertify | src/Assertifier.java:90-96 | the configuration is kept; the traversed set persists and grows; a root equal to an already-traversed value prints the empty string and leaves the instance as it was; any other run prints "Assert.assertNotNull(" + name + ");\r\n" followed by the rendered non-root walk of the root at the unchanged name, or ends in the RuntimeException that walk raises, and leaves the walk's traversed set |
| Assertifier.Render | src/Assertifier.java:98-110 | every generated line is an Assert.assert… call ending in \r\n |
| Assertifier.RenderText | src/Assertifier.java:230-232 | the exact text of each line: Assert.assertNotNull(p);, Assert.assertNull(p); and Assert.assertEquals(e, p);, each followed by \r\n |
| Assertifier.BuildNull | src/Assertifier.java:104-110 | at most one line; it is assertNull at the given path, and it is there exactly when includeNull is set |
| Assertifier.PathListEntry | src/Assertifier.java:112-115 | a list element's path starts with ((SimpleName)path.get( and ends with )) |
| AssertifierProperties.PathListEntryIndex | src/Assertifier.java:112-115 | the index between get( and )) is canonical decimal text that reads back as the element's position |
| Assertifier.Literal | src/Assertifier.java:137-148 | an Integer literal has the form Integer.valueOf(…) and a Long literal Long.valueOf(…L); a String literal is the string plus two double quotes; LiteralDenotesValue shows the numbers read back |
| Assertifier.LeafLines | src/Assertifier.java:167-185 | a null result gives buildNull at the getter path; an Integer, Long, String, Enum or Boolean gives exactly one assertEquals, whose expected side for the first four is the value's literal; a Date gives nothing |
| Assertifier.SizeLine | src/Assertifier.java:262-265 | a list gets one size line exactly when it is non-empty or includeEmptyLists is set, and it compares with path.size(); SizeLineDenotesSize shows the expected side reads back as the size |
| AssertifierProperties.LiteralDenotesValue | src/Assertifier.java:137-148 | Integer and Long literals read back as the value they wrap; a String literal is the string between double quotes with no escaping; an Enum literal is SimpleName.CONSTANT |
| AssertifierProperties.ExemptValueAlwaysEmits | src/Assertifier.java:169-180 | a String, Integer, Long or Enum emits its assertEquals line on every occurrence and leaves the traversed set unchanged |
| AssertifierProperties.SameStringTwiceEmitsTwice | src/Assertifier.java:214-217 | two getters returning the same string both get their line |
| AssertifierProperties.RevisitIsSilent | src/Assertifier.java:153-159 | once a non-exempt value is traversed, any later encounter with an equal value, as root or not, emits nothing |
| AssertifierProperties.SecondEqualBooleanIsSilent | src/Assertifier.java:181-183 | of two getters returning equal Booleans only the first gets a Boolean.valueOf line |
| AssertifierProperties.SecondAssertifyIsSilent | src/Assertifier.java:40 | a second assertify on the same instance, for a value equal to a traversed one, prints nothing |
| AssertifierProperties.ExemptResultShape | src/Assertifier.java:169-180 | a getter's Integer or Long result is compared as Integer.valueOf(n) or Long.valueOf(nL) at ((Integer)path.m()) or ((Long)path.m()); a String or Enum result is compared as its quoted text or SimpleName.CONST at path.m(); the traversed set is unchanged |
| AssertifierProperties.BooleanAndDateResultShape | src/Assertifier.java:181-185 | a getter's fresh Boolean result is compared as Boolean.valueOf(b) against Boolean.valueOf(path.m()); a fresh Date emits nothing; both are added to the traversed set |
| AssertifierProperties.ObjectResultShape | src/Assertifier.java:186-188 | a getter's fresh list or composite result is marked as traversed, then traversed at ((SimpleName)path.m()) |
| AssertifierProperties.NullResultLine | src/Assertifier.java:104-110 | a relevant getter returning null or throwing yields Assert.assertNull(path.m()); exactly when includeNull is set, and marks nothing |
| AssertifierProperties.RootObjectTraverse | src/Assertifier.java:124-127 | a list or composite root not yet traversed is marked, then traversed at the unchanged name, with no cast |
| AssertifierProperties.ExemptRootText | src/Assertifier.java:161-180 | a String, Integer, Long or Enum root prints assertNotNull(name), then assertEquals of its literal against the unchanged name, for example Assert.assertEquals(Integer.valueOf(3), x); |
| AssertifierProperties.NullRootText | src/Assertifier.java:161-168 | a null root prints its assertNotNull, then assertNull under includeNull |
| AssertifierProperties.IgnoreSkips | src/Assertifier.java:303-313 | after ignore(classes), isSkipObject holds for every object of a listed class and for everything it held for before, and for nothing else |
| AssertifierProperties.SkippedSubtreeIsSilent | src/Assertifier.java:303-313 | a javax, com.sun.org or ignored object yields no lines below it, but is marked as traversed |
| AssertifierProperties.TraversedGettersAreSilent | src/Assertifier.java:273-294 | getters whose results are all traversed already contribute nothing |
| AssertifierProperties.SelfReferenceAssertsOnlyRoot | src/Assertifier.java:153-159 | an object whose getters all return itself prints only the root's assertNotNull: the cycle is cut |
| AssertifierProperties.EmptyListPolicy | src/Assertifier.java:262-265 | an empty list yields Assert.assertEquals(0, path.size()); exactly when includeEmptyLists is set |
| AssertifierProperties.SizeLineDenotesSize | src/Assertifier.java:262-265 | the size line compares path.size() with a literal that reads back as the list's length |
| AssertifierProperties.NullElementFromFails | src/Assertifier.java:112-115 | a null element at or after the current index makes the list walk fail |
| AssertifierProperties.NullElementFails | src/Assertifier.java:90-96 | assertify on a list holding a null element ends in a RuntimeException |
| AssertifierProperties.ExemptElementsFrom | src/Assertifier.java:266-271 | each exempt element from index i on yields its line, in order |
| AssertifierProperties.ExemptListLines | src/Assertifier.java:260-271 | a list of exempt values yields the size-line policy, then one assertEquals per element in order at ((SimpleName)path.get(i)) |
| Decimal.IntToString | src/Assertifier.java:142-148 | the decimal text is canonical: digits with no leading zero, and a minus sign exactly for negatives |
| Decimal.IntRoundTrip | src/Assertifier.java:142-148 | reading back the decimal text of n gives n |
| Decimal.StringRoundTrip | src/Assertifier.java:142-148 | every canonical decimal text is the text of its value |
| JaQL.Where | src/de/jenswurm/tools/JaQL.java:36-44 | the elements kept all have the requested key and are no more than the input |
| JaQL.GroupBy | src/de/jenswurm/tools/JaQL.java:34-50 | the map's keys are exactly the keys of the inputs; group k is the input's elements with key k, in input order |
| JaQL.Cross | src/de/jenswurm/tools/JaQL.java:121-125 | one group's pairs number the left group's size times the right group's size, all tagged with the group's key and all with a partner |
| JaQL.Join | src/de/jenswurm/tools/JaQL.java:118-127 | every tuple's left element is from the left list and has the tuple's key; its right element, if any, is from the right list and has the same key; a tuple has no right element exactly when the join is outer and no right element has its key |
| JaQL.InnerJoin | src/de/jenswurm/tools/JaQL.java:102-130 | every tuple pairs a left and a right element that both have the tuple's key; InnerJoinByKey and InnerJoinMultiplicity show that these are all the matching pairs, each as often as its multiplicities allow |
| JaQL.LeftJoin | src/de/jenswurm/tools/JaQL.java:184-216 | every tuple has a left element with its key; it has a right element with the same key unless no right element has that key, and then it has none; LeftJoinMatchedKey, LeftJoinUnmatchedKey and LeftJoinSize give the tuples per key and the size |
| JaQLProperties.WhereCount | src/de/jenswurm/tools/JaQL.java:36-44 | filtering by key keeps every occurrence of the elements with that key, and no others |
| JaQLProperties.WhereKeepsOrder | src/de/jenswurm/tools/JaQL.java:36-44 | filtering keeps input order: the kept elements sit at strictly increasing input positions, which are all positions with that key |
| JaQLProperties.FlattenByKey | src/de/jenswurm/tools/JaQL.java:118-127 | in a concatenation of per-key blocks, walked in any duplicate-free order, the elements with key k are exactly block k |
| JaQLProperties.FlattenOrderIrrelevant | src/de/jenswurm/tools/JaQL.java:118 | the contents and length of the output do not depend on the HashMap's iteration order |
| JaQLProperties.GroupByPlacement | src/de/jenswurm/tools/JaQL.java:34-50 | every input element is in the group of its own key; every group holds only elements of its key; no group is empty |
| JaQLProperties.GroupByKeepsOrder | src/de/jenswurm/tools/JaQL.java:36-44 | within a group, elements keep their relative input order |
| JaQLProperties.GroupByCount | src/de/jenswurm/tools/JaQL.java:34-50 | each group holds every input occurrence of the elements with its key |
| JaQLProperties.GroupByPartition | src/de/jenswurm/tools/JaQL.java:34-50 | the groups together, in any key order, are a permutation of the input |
| JaQLProperties.JoinByKey | src/de/jenswurm/tools/JaQL.java:118-127 | the join's tuples with key k are the block of the left group of k, and none if there is no such group |
| JaQLProperties.InnerJoinByKey | src/de/jenswurm/tools/JaQL.java:118-127 | innerJoin's tuples with key k pair each left element of key k with each right element of key k, left-major, both sides in input order |
| JaQLProperties.CrossIsLeftMajor | src/de/jenswurm/tools/JaQL.java:121-124 | within a key, the tuple at position i times the right group's size plus j pairs the i-th left element with the j-th right element |
| JaQLProperties.CrossCount | src/de/jenswurm/tools/JaQL.java:121-124 | a pair (l, r) occurs as often as l occurs on the left times as often as r occurs on the right |
| JaQLProperties.InnerJoinTuplesAgree | src/de/jenswurm/tools/JaQL.java:118-126 | every innerJoin tuple has a partner, and joinOnLeft(left) == joinValue == joinOnRight(right) |
| JaQLProperties.InnerJoinKeySize | src/de/jenswurm/tools/JaQL.java:118-127 | the number of innerJoin tuples with key k is the left count of k times the right count of k |
| JaQLProperties.InnerJoinMultiplicity | src/de/jenswurm/tools/JaQL.java:118-127 | a matching pair appears with the product of its multiplicities; a non-matching one never appears |
| JaQLProperties.LeftJoinMatchedKey | src/de/jenswurm/tools/JaQL.java:200-207 | for a key present on the right, leftJoin has exactly innerJoin's tuples, whatever the two iteration orders |
| JaQLProperties.LeftJoinUnmatchedKey | src/de/jenswurm/tools/JaQL.java:208-212 | for a key absent on the right, leftJoin has each left element of that key once, with no partner, in input order |
| JaQLProperties.LeftJoinUnmatchedOnce | src/de/jenswurm/tools/JaQL.java:208-212 | a left element whose key is absent on the right appears with right = null and its own key exactly as often as on the left |
| JaQLProperties.LeftJoinSize | src/de/jenswurm/tools/JaQL.java:184-216 | the size of leftJoin is the size of innerJoin plus the number of left elements whose key is absent on the right |
| JaQLProperties.EmptyRight | src/de/jenswurm/tools/JaQL.java:102-130 | with an empty right list, innerJoin is empty and leftJoin has one tuple per left element |

## Left out

- Reflection itself is not modelled: `getMethods`, `Method.invoke`, `getSimpleName` and `getCanonicalName`. The heap node records what these return. A null canonical name, as anonymous classes have, is not represented.
- `System.out.println` is left out. So is the wrapping of any exception in a `RuntimeException` by `assertify`, and the `printStackTrace` and rethrow in `traverse`. Of the failures the walk itself can raise, the model reports only the `NullPointerException` of a null list element, with its list path and index. It does not report the `NullPointerException` of a null canonical name at `src/Assertifier.java:304`, or the stack overflow of a self-containing list described next.
- Lists that contain themselves are not modelled faithfully. When a list contains itself, directly or only through other lists, `alreadyTraversed.contains` at `src/Assertifier.java:154` recurses through `ArrayList.hashCode` until the stack overflows. The resulting `StackOverflowError` is an `Error`, so the `catch (Exception e)` of `assertify` at `src/Assertifier.java:93` does not wrap it. The model gives each list a fixed `equalsClass` and cuts such a cycle like any other, so it reports lines where Java fails.
- Assertifier.IncludeIds: the real flag is a static field, so setting it on one instance affects every instance in the process. The model keeps it in the instance's configuration.
- Hashing internals of `HashSet` and `HashMap` are not modelled. `equals` on heap objects is the `equalsClass` field, so it is not derived from list contents or from user-defined `equals` methods. Equal values of different value kinds never compare equal.
- `ignore` compares classes by exact runtime class. The model identifies a class by its simple and canonical names.
- A `Date` subclass such as `java.sql.Timestamp` is a `DateValue`, as the `instanceof Date` test at `src/Assertifier.java:184` treats it. Its own `equals` is not modelled: `DateValue` compares only the millisecond time, while `Timestamp` also compares nanoseconds.
- Enum constants with their own bodies are not modelled separately. The constant's runtime class is whatever the value records.
- `HashMap` iteration order in JaQL is not modelled. It is the `order` parameter, and the join properties are stated per key or as multisets.
- The rethrow of indexer exceptions in `groupBy` is left out. Key functions are total in the model.
- `Tuple`'s private constructor and its getters are the fields of `JaQL.Tuple`.
- `JaQL.Tuple` keeps "no partner" (`right = None`) apart from a matched right element that is itself Java `null` (`Some` of a null element). In Java both give `getRight() == null`, so the two cannot be told apart when `rightObjects` holds `null` and `joinOnRight(null)` returns a key.
- `FileJoiner`, `FileProcessor`, `FileLineReader` and `Playground` are not part of this model. They do file I/O, regex splitting, logging, and a `main` with hard-coded paths.

=== FILE: assertifier.dfy ===
/**
  The Assertifier: it walks an object graph through its getters and emits
  JUnit `Assert.*` source lines that pin down the graph's observable state.

  Reflection is replaced by an explicit heap. A heap node is either a list or
  a composite object; a composite lists its public methods in the order
  reflection reports them, each with its name, its parameter count and what
  invoking it does (return a value or throw). With that, the generated text is
  a pure function of the configuration, the set of already traversed values,
  the heap, the root value and the root's name.
 */
module Assertifier {
  import opened Options
  import Decimal

  /** The ranges of java.lang.Integer and java.lang.Long. */
  type Int32 = n: int | -0x8000_0000 <= n < 0x8000_0000
  type Int64 = n: int | -0x8000_0000_0000_0000 <= n < 0x8000_0000_0000_0000

  type Ref = nat

  /** A runtime class, by the two names reflection reports for it. */
  datatype ClassInfo = ClassInfo(simpleName: string, canonicalName: string)

  /**
    A value a getter can return. The value kinds the Assertifier tells apart
    are their own constructors; every other object (lists and composites)
    lives in the heap and is reached through a reference.
   */
  datatype Value =
    | Null
    | IntegerValue(i: Int32)
    | LongValue(l: Int64)
    | StringValue(s: string)
    | EnumValue(enumClass: ClassInfo, constant: string)
    | BooleanValue(b: bool)
    | DateValue(time: Int64)
    | Object(ref: Ref)

  /** What invoking a method does: return a value or throw. */
  datatype Invocation = Returns(value: Value) | Throws

  datatype Method = Method(name: string, paramCount: nat, invocation: Invocation)

  /**
    A heap object. Objects with the same `equalsClass` are equal under
    `equals`: an object that does not override `equals` has a class of its
    own, and two lists with equal contents share one.
   */
  datatype Node =
    | ListNode(cls: ClassInfo, equalsClass: nat, elements: seq<Value>)
    | CompositeNode(cls: ClassInfo, equalsClass: nat, methods: seq<Method>)

  type Heap = map<Ref, Node>

  predicate ValueIn(heap: Heap, v: Value) {
    v.Object? ==> v.ref in heap
  }

  predicate MethodIn(heap: Heap, m: Method) {
    m.invocation.Returns? ==> ValueIn(heap, m.invocation.value)
  }

  predicate NodeIn(heap: Heap, node: Node) {
    match node
    case ListNode(_, _, elements) => forall i :: 0 <= i < |elements| ==> ValueIn(heap, elements[i])
    case CompositeNode(_, _, methods) => forall i :: 0 <= i < |methods| ==> MethodIn(heap, methods[i])
  }

  /** Every reference held by a heap object points into the heap: no dangling references. */
  predicate Closed(heap: Heap) {
    forall r :: r in heap ==> NodeIn(heap, heap[r])
  }

  // ---------------------------------------------------------------------
  // Configuration

  datatype Config = Config(
    includeNull: bool,
    includeEmptyLists: bool,
    includeIds: bool,
    ignoreClasses: set<ClassInfo>)

  /**
    Membership in the already-traversed HashSet goes through `equals`: a
    value other than a heap object is its own key (Boolean and Date compare
    by value), and a heap object's key is its equals class.
   */
  datatype Key = ValueKey(value: Value) | ObjectKey(equalsClass: nat)

  /** An Assertifier instance: its configuration and its already-traversed set, which is never cleared. */
  datatype Assertifier = Assertifier(config: Config, alreadyTraversed: set<Key>)

  function New(): (a: Assertifier)
    ensures !a.config.includeNull && !a.config.includeEmptyLists && !a.config.includeIds
    ensures a.config.ignoreClasses == {} && a.alreadyTraversed == {}
  {
    Assertifier(Config(false, false, false, {}), {})
  }

  function IncludeNull(a: Assertifier): (r: Assertifier)
    ensures r.config.includeNull
    ensures r.config.(includeNull := a.config.includeNull) == a.config
    ensures r.alreadyTraversed == a.alreadyTraversed
  {
    a.(config := a.config.(includeNull := true))
  }

  function IncludeEmptyLists(a: Assertifier): (r: Assertifier)
    ensures r.config.includeEmptyLists
    ensures r.config.(includeEmptyLists := a.config.includeEmptyLists) == a.config
    ensures r.alreadyTraversed == a.alreadyTraversed
  {
    a.(config := a.config.(includeEmptyLists := true))
  }

  function IncludeIds(a: Assertifier): (r: Assertifier)
    ensures r.config.includeIds
    ensures r.config.(includeIds := a.config.includeIds) == a.config
    ensures r.alreadyTraversed == a.alreadyTraversed
  {
    a.(config := a.config.(includeIds := true))
  }

  function Ignore(a: Assertifier, classes: seq<ClassInfo>): (r: Assertifier)
    ensures forall c :: c in r.config.ignoreClasses <==> c in a.config.ignoreClasses || c in classes
    ensures r.config.(ignoreClasses := a.config.ignoreClasses) == a.config
    ensures r.alreadyTraversed == a.alreadyTraversed
  {
    a.(config := a.config.(ignoreClasses := a.config.ignoreClasses + set c | c in classes))
  }

  // ---------------------------------------------------------------------
  // Getter filter

  predicate StartsWith(s: string, prefix: string) {
    |prefix| <= |s| && s[..|prefix|] == prefix
  }

  /** Getter names that are never traversed, besides getClass and getId. */
  const Denylist: set<string> := {
    "getCacheKeyAttributes", "getProperties", "getConstraints",
    "getDataTypeConstraints", "getPropertyType", "get_AssociationHandler",
    "getCacheKey", "get_InstanceId", "getDataTypeId", "getInternalDate",
    "getAnspInhaltAsBoolean", "getTechVersion"
  }

  function IsRelevantGetter(includeIds: bool, m: Method): (relevant: bool)
    ensures relevant <==>
      && StartsWith(m.name, "get")
      && m.paramCount == 0
      && m.name != "getClass"
      && m.name !in Denylist
      && (m.name != "getId" || includeIds)
    ensures m.name == "getId" && m.paramCount == 0 ==> (relevant <==> includeIds)
  {
    var name := m.name;
    && StartsWith(name, "get") && m.paramCount == 0
    && name != "getClass"
    && name != "getCacheKeyAttributes"
    && name != "getProperties"
    && name != "getConstraints"
    && name != "getDataTypeConstraints"
    && name != "getPropertyType"
    && name != "get_AssociationHandler"
    && name != "getCacheKey"
    && name != "get_InstanceId"
    && name != "getDataTypeId"
    && name != "getInternalDate"
    && name != "getAnspInhaltAsBoolean"
    && name != "getTechVersion"
    && (name != "getId" || includeIds)
  }

  /** A getter that throws counts as one that returned null. */
  function Invoke(m: Method): (v: Value)
    ensures m.invocation.Returns? ==> v == m.invocation.value
    ensures m.invocation.Throws? ==> v == Null
  {
    match m.invocation
    case Returns(v) => v
    case Throws => Null
  }

  // ---------------------------------------------------------------------
  // Value classification

  /** The kinds never put into the already-traversed set. */
  predicate IsExempt(v: Value) {
    v.StringValue? || v.IntegerValue? || v.LongValue? || v.EnumValue?
  }

  predicate NoExemptKeys(visited: set<Key>) {
    forall k :: k in visited ==> !(k.ValueKey? && IsExempt(k.value))
  }

  function KeyOf(heap: Heap, v: Value): Key
    requires ValueIn(heap, v)
  {
    if v.Object? then ObjectKey(heap[v.ref].equalsClass) else ValueKey(v)
  }

  function AddToAlreadyTraversed(heap: Heap, visited: set<Key>, v: Value): (r: set<Key>)
    requires v != Null && ValueIn(heap, v)
    ensures IsExempt(v) ==> r == visited
    ensures !IsExempt(v) ==> r == visited + {KeyOf(heap, v)}
    ensures NoExemptKeys(visited) ==> NoExemptKeys(r)
  {
    if IsExempt(v) then visited else visited + {KeyOf(heap, v)}
  }

  /** The simple name of a non-null value's runtime class. */
  function SimpleName(heap: Heap, v: Value): string
    requires v != Null && ValueIn(heap, v)
  {
    match v
    case IntegerValue(_) => "Integer"
    case LongValue(_) => "Long"
    case StringValue(_) => "String"
    case EnumValue(c, _) => c.simpleName
    case BooleanValue(_) => "Boolean"
    case DateValue(_) => "Date"
    case Object(r) => heap[r].cls.simpleName
  }

  predicate IsSkipObject(cfg: Config, node: Node) {
    || StartsWith(node.cls.canonicalName, "javax")
    || StartsWith(node.cls.canonicalName, "com.sun.org")
    || node.cls in cfg.ignoreClasses
  }

  // ---------------------------------------------------------------------
  // Paths and assertion lines

  /** `path.m()`, or the path itself when no getter produced the value. */
  function PathPrimitive(getter: Option<string>, path: string): (p: string)
    ensures getter.None? ==> p == path
  {
    match getter
    case None => path
    case Some(name) => path + "." + name + "()"
  }

  /** `((SimpleName)path.m())`: the getter call, cast to the result's runtime class. */
  function PathWithCast(getter: Option<string>, simpleName: string, path: string): (p: string)
    ensures getter.None? ==> p == path
    ensures getter.Some? ==> p == "((" + simpleName + ")" + PathPrimitive(getter, path) + ")"
  {
    match getter
    case None => path
    case Some(name) => "((" + simpleName + ")" + path + "." + name + "())"
  }

  /** `((SimpleName)path.get(i))`: list element i, cast to its runtime class. */
  function PathListEntry(path: string, i: nat, simpleName: string): (p: string)
    ensures StartsWith(p, "((" + simpleName + ")" + path + ".get(") && p[|p| - 2..] == "))"
  {
    "((" + simpleName + ")" + path + ".get(" + Decimal.IntToString(i) + "))"
  }

  datatype Line =
    | AssertNotNull(path: string)
    | AssertNull(path: string)
    | AssertEquals(expected: string, actual: string)

  const CRLF: string := "\r\n"

  /** The source text of one line: an `Assert.assert…` call ending in CRLF. */
  function Render(line: Line): (s: string)
    ensures StartsWith(s, "Assert.assert") && |s| >= 2 && s[|s| - 2..] == CRLF
  {
    match line
    case AssertNotNull(p) => "Assert.assertNotNull(" + p + ");" + CRLF
    case AssertNull(p) => "Assert.assertNull(" + p + ");" + CRLF
    case AssertEquals(e, a) => "Assert.assertEquals(" + e + ", " + a + ");" + CRLF
  }

  function RenderAll(lines: seq<Line>): string {
    if |lines| == 0 then "" else Render(lines[0]) + RenderAll(lines[1..])
  }

  /** The text of each kind of line, with its CRLF ending written out. */
  lemma RenderText(p: string, e: string)
    ensures Render(AssertNotNull(p)) == "Assert.assertNotNull(" + p + ");\r\n"
    ensures Render(AssertNull(p)) == "Assert.assertNull(" + p + ");\r\n"
    ensures Render(AssertEquals(e, p)) == "Assert.assertEquals(" + e + ", " + p + ");\r\n"
  {
    assert ");" + CRLF == ");\r\n";
  }

  /** The rendered text of a non-empty block starts with its first line. */
  lemma RenderAllHead(lines: seq<Line>)
    requires |lines| > 0
    ensures StartsWith(RenderAll(lines), Render(lines[0]))
  {
    var s := RenderAll(lines);
    assert s == Render(lines[0]) + RenderAll(lines[1..]);
    assert s[..|Render(lines[0])|] == Render(lines[0]);
  }

  /** Rendering a block is rendering its first line, then the rest. */
  lemma RenderAllCons(line: Line, lines: seq<Line>)
    ensures RenderAll([line] + lines) == Render(line) + RenderAll(lines)
  {
    assert ([line] + lines)[1..] == lines;
  }

  /** buildNull: one assertNull line at `path` exactly when includeNull is set. */
  function BuildNull(cfg: Config, path: string): (lines: seq<Line>)
    ensures |lines| <= 1 && (|lines| == 1 <==> cfg.includeNull)
    ensures forall i :: 0 <= i < |lines| ==> lines[i] == AssertNull(path)
  {
    if cfg.includeNull then [AssertNull(path)] else []
  }

  function BoolToString(b: bool): string {
    if b then "true" else "false"
  }

  /** The Java source of an exempt value, as the expected side of assertEquals. */
  function Literal(v: Value): (lit: string)
    requires IsExempt(v)
    ensures v.IntegerValue? ==> StartsWith(lit, "Integer.valueOf(") && lit[|lit| - 1] == ')'
    ensures v.LongValue? ==> StartsWith(lit, "Long.valueOf(") && lit[|lit| - 2..] == "L)"
    ensures v.StringValue? ==> |lit| == |v.s| + 2 && lit[0] == '"' && lit[|lit| - 1] == '"'
  {
    match v
    case IntegerValue(n) => "Integer.valueOf(" + Decimal.IntToString(n) + ")"
    case LongValue(n) => "Long.valueOf(" + Decimal.IntToString(n) + "L)"
    case StringValue(s) => "\"" + s + "\""
    case EnumValue(c, name) => c.simpleName + "." + name
  }

  /** The path an exempt value is compared at: cast for Integer and Long, plain for String and Enum. */
  function LeafPath(v: Value, getter: Option<string>, path: string): string
    requires IsExempt(v)
  {
    if v.IntegerValue? then PathWithCast(getter, "Integer", path)
    else if v.LongValue? then PathWithCast(getter, "Long", path)
    else PathPrimitive(getter, path)
  }

  /** The list's size line, unless the list is empty and includeEmptyLists is off. */
  function SizeLine(cfg: Config, size: nat, path: string): (lines: seq<Line>)
    ensures |lines| <= 1 && (|lines| == 1 <==> size > 0 || cfg.includeEmptyLists)
    ensures |lines| == 1 ==> lines[0].AssertEquals? && lines[0].actual == path + ".size()"
  {
    if size > 0 || cfg.includeEmptyLists
    then [AssertEquals(Decimal.IntToString(size), path + ".size()")]
    else []
  }

  /**
    The lines for a value that is not a heap object: assertNull (under
    includeNull) for null, assertEquals for String, Integer, Long, Enum and
    Boolean, nothing for a Date.
   */
  function LeafLines(cfg: Config, getter: Option<string>, v: Value, path: string): (lines: seq<Line>)
    requires !v.Object?
    ensures v == Null ==> lines == BuildNull(cfg, PathPrimitive(getter, path))
    ensures IsExempt(v) || v.BooleanValue? ==> |lines| == 1 && lines[0].AssertEquals?
    ensures IsExempt(v) ==> lines[0].expected == Literal(v)
    ensures v.DateValue? ==> lines == []
  {
    if v == Null then BuildNull(cfg, PathPrimitive(getter, path))
    else if IsExempt(v) then [AssertEquals(Literal(v), LeafPath(v, getter, path))]
    else if v.BooleanValue? then
      [AssertEquals("Boolean.valueOf(" + BoolToString(v.b) + ")",
                    "Boolean.valueOf(" + PathPrimitive(getter, path) + ")")]
    else []
  }

  // ---------------------------------------------------------------------
  // Traversal

  /** The lines of a walk, or the NullPointerException a null list element raises. */
  datatype Outcome =
    | Emitted(lines: seq<Line>)
    | NullListElement(listPath: string, index: nat)

  datatype Walk = Walk(outcome: Outcome, visited: set<Key>)

  function Prefix(head: seq<Line>, o: Outcome): Outcome {
    match o
    case Emitted(lines) => Emitted(head + lines)
    case NullListElement(_, _) => o
  }

  function ObjectKeys(heap: Heap): set<Key> {
    set r | r in heap :: ObjectKey(heap[r].equalsClass)
  }

  /** The number of heap objects (up to equals) not yet traversed: the termination measure. */
  function Unvisited(heap: Heap, visited: set<Key>): nat {
    |ObjectKeys(heap) - visited|
  }

  lemma MarkShrinksUnvisited(heap: Heap, visited: set<Key>, r: Ref)
    requires r in heap && ObjectKey(heap[r].equalsClass) !in visited
    ensures Unvisited(heap, visited + {ObjectKey(heap[r].equalsClass)}) < Unvisited(heap, visited)
  {
    var k := ObjectKey(heap[r].equalsClass);
    assert k in ObjectKeys(heap);
    assert ObjectKeys(heap) - (visited + {k}) == (ObjectKeys(heap) - visited) - {k};
  }

  lemma GrowingShrinksUnvisited(heap: Heap, visited: set<Key>, visited': set<Key>)
    requires visited <= visited'
    ensures Unvisited(heap, visited') <= Unvisited(heap, visited)
  {
    var small, large := ObjectKeys(heap) - visited', ObjectKeys(heap) - visited;
    assert large == small + (large - small);
    assert small !! (large - small);
  }

  /**
    processResult: one value reached at `path` (through getter `method`, or
    as the root or a list element when `method` is None).
   */
  function ProcessResult(cfg: Config, heap: Heap, visited: set<Key>, getter: Option<string>,
                         v: Value, path: string, root: bool): (w: Walk)
    requires Closed(heap) && ValueIn(heap, v)
    ensures visited <= w.visited
    ensures NoExemptKeys(visited) ==> NoExemptKeys(w.visited)
    ensures v != Null && KeyOf(heap, v) in visited ==> w == Walk(Emitted([]), visited)
    ensures v != Null && !IsExempt(v) ==> KeyOf(heap, v) in w.visited
    ensures root && !(v != Null && KeyOf(heap, v) in visited) && w.outcome.Emitted? ==>
              |w.outcome.lines| > 0 && w.outcome.lines[0] == AssertNotNull(path)
    decreases Unvisited(heap, visited), 0
  {
    if v != Null && KeyOf(heap, v) in visited then Walk(Emitted([]), visited)
    else
      var marked := if v == Null then visited else AddToAlreadyTraversed(heap, visited, v);
      var body :=
        if v.Object? then
          MarkShrinksUnvisited(heap, visited, v.ref);
          Traverse(cfg, heap, marked, v.ref, PathWithCast(getter, heap[v.ref].cls.simpleName, path))
        else
          Walk(Emitted(LeafLines(cfg, getter, v, path)), marked);
      if root then Walk(Prefix([AssertNotNull(path)], body.outcome), body.visited) else body
  }

  /**
    At the root, a value not yet traversed yields assertNotNull(path) and
    then exactly what the same value yields as a non-root value at the same
    path, with the same effect on the traversed set.
   */
  lemma RootWalk(cfg: Config, heap: Heap, visited: set<Key>, getter: Option<string>, v: Value, path: string)
    requires Closed(heap) && ValueIn(heap, v) && !(v != Null && KeyOf(heap, v) in visited)
    ensures var plain := ProcessResult(cfg, heap, visited, getter, v, path, false);
      ProcessResult(cfg, heap, visited, getter, v, path, true)
        == Walk(Prefix([AssertNotNull(path)], plain.outcome), plain.visited)
  {
  }

  /** traverse: a list or composite object reached at `path`. */
  function Traverse(cfg: Config, heap: Heap, visited: set<Key>, r: Ref, path: string): (w: Walk)
    requires Closed(heap) && r in heap
    ensures visited <= w.visited
    ensures NoExemptKeys(visited) ==> NoExemptKeys(w.visited)
    ensures IsSkipObject(cfg, heap[r]) ==> w == Walk(Emitted([]), visited)
    decreases Unvisited(heap, visited), 3
  {
    if IsSkipObject(cfg, heap[r]) then Walk(Emitted([]), visited)
    else
      match heap[r]
      case ListNode(_, _, elements) =>
        var w := TraverseElements(cfg, heap, visited, r, 0, path);
        Walk(Prefix(SizeLine(cfg, |elements|, path), w.outcome), w.visited)
      case CompositeNode(_, _, _) =>
        TraverseGetters(cfg, heap, visited, r, 0, path)
  }

  /** The elements of list `r` from index `i` on, each at `((SimpleName)path.get(i))`. */
  function TraverseElements(cfg: Config, heap: Heap, visited: set<Key>, r: Ref, i: nat, path: string): (w: Walk)
    requires Closed(heap) && r in heap && heap[r].ListNode? && i <= |heap[r].elements|
    ensures visited <= w.visited
    ensures NoExemptKeys(visited) ==> NoExemptKeys(w.visited)
    decreases Unvisited(heap, visited), 2, |heap[r].elements| - i
  {
    var elements := heap[r].elements;
    if i == |elements| then Walk(Emitted([]), visited)
    else
      var e := elements[i];
      if e == Null then Walk(NullListElement(path, i), visited)
      else
        var w := ProcessResult(cfg, heap, visited, None, e, PathListEntry(path, i, SimpleName(heap, e)), false);
        if w.outcome.NullListElement? then w
        else
          GrowingShrinksUnvisited(heap, visited, w.visited);
          var rest := TraverseElements(cfg, heap, w.visited, r, i + 1, path);
          Walk(Prefix(w.outcome.lines, rest.outcome), rest.visited)
  }

  /** The getters of composite `r` from index `i` on, in the order reflection lists them. */
  function TraverseGetters(cfg: Config, heap: Heap, visited: set<Key>, r: Ref, i: nat, path: string): (w: Walk)
    requires Closed(heap) && r in heap && heap[r].CompositeNode? && i <= |heap[r].methods|
    ensures visited <= w.visited
    ensures NoExemptKeys(visited) ==> NoExemptKeys(w.visited)
    decreases Unvisited(heap, visited), 2, |heap[r].methods| - i
  {
    var methods := heap[r].methods;
    if i == |methods| then Walk(Emitted([]), visited)
    else
      assert MethodIn(heap, methods[i]);
      var w := GetterStep(cfg, heap, visited, methods[i], path);
      if w.outcome.NullListElement? then w
      else
        GrowingShrinksUnvisited(heap, visited, w.visited);
        var rest := TraverseGetters(cfg, heap, w.visited, r, i + 1, path);
        Walk(Prefix(w.outcome.lines, rest.outcome), rest.visited)
  }

  /** One method of a composite: skipped unless it is a relevant getter, else invoked and processed. */
  function GetterStep(cfg: Config, heap: Heap, visited: set<Key>, m: Method, path: string): (w: Walk)
    requires Closed(heap) && MethodIn(heap, m)
    ensures visited <= w.visited
    ensures NoExemptKeys(visited) ==> NoExemptKeys(w.visited)
    ensures !IsRelevantGetter(cfg.includeIds, m) ==> w == Walk(Emitted([]), visited)
    decreases Unvisited(heap, visited), 1
  {
    if !IsRelevantGetter(cfg.includeIds, m) then Walk(Emitted([]), visited)
    else ProcessResult(cfg, heap, visited, Some(m.name), Invoke(m), path, false)
  }

  // ---------------------------------------------------------------------
  // Entry point

  /** What assertify produces: the generated text, or the RuntimeException wrapping a NullPointerException. */
  datatype Report = Text(text: string) | RuntimeException(listPath: string, index: nat)

  datatype Run = Run(report: Report, after: Assertifier)

  function Assertify(a: Assertifier, heap: Heap, root: Value, name: string): (run: Run)
    requires Closed(heap) && ValueIn(heap, root)
    ensures run.after.config == a.config
    ensures a.alreadyTraversed <= run.after.alreadyTraversed
    ensures NoExemptKeys(a.alreadyTraversed) ==> NoExemptKeys(run.after.alreadyTraversed)
    ensures root != Null && !IsExempt(root) ==> KeyOf(heap, root) in run.after.alreadyTraversed
    ensures root != Null && KeyOf(heap, root) in a.alreadyTraversed ==>
              run == Run(Text(""), a)
    ensures !(root != Null && KeyOf(heap, root) in a.alreadyTraversed) && run.report.Text? ==>
              StartsWith(run.report.text, "Assert.assertNotNull(" + name + ");\r\n")
    ensures !(root != Null && KeyOf(heap, root) in a.alreadyTraversed) ==>
              var plain := ProcessResult(a.config, heap, a.alreadyTraversed, None, root, name, false);
              && run.after.alreadyTraversed == plain.visited
              && (plain.outcome.Emitted? ==>
                    run.report == Text("Assert.assertNotNull(" + name + ");\r\n" + RenderAll(plain.outcome.lines)))
              && (plain.outcome.NullListElement? ==>
                    run.report == RuntimeException(plain.outcome.listPath, plain.outcome.index))
  {
    var w := ProcessResult(a.config, heap, a.alreadyTraversed, None, root, name, true);
    var plain := ProcessResult(a.config, heap, a.alreadyTraversed, None, root, name, false);
    assert !(root != Null && KeyOf(heap, root) in a.alreadyTraversed) ==>
             && w == Walk(Prefix([AssertNotNull(name)], plain.outcome), plain.visited)
             && (plain.outcome.Emitted? ==>
                   RenderAll([AssertNotNull(name)] + plain.outcome.lines)
                   == "Assert.assertNotNull(" + name + ");\r\n" + RenderAll(plain.outcome.lines)) by {
      if !(root != Null && KeyOf(heap, root) in a.alreadyTraversed) {
        RootWalk(a.config, heap, a.alreadyTraversed, None, root, name);
        if plain.outcome.Emitted? {
          RenderAllCons(AssertNotNull(name), plain.outcome.lines);
          RenderText(name, "");
        }
      }
    }
    assert !(root != Null && KeyOf(heap, root) in a.alreadyTraversed) && w.outcome.Emitted? ==>
             StartsWith(RenderAll(w.outcome.lines), "Assert.assertNotNull(" + name + ");\r\n") by {
      if !(root != Null && KeyOf(heap, root) in a.alreadyTraversed) && w.outcome.Emitted? {
        RenderAllHead(w.outcome.lines);
        RenderText(name, "");
      }
    }
    var report := match w.outcome
      case Emitted(lines) => Text(RenderAll(lines))
      case NullListElement(p, i) => RuntimeException(p, i);
    Run(report, a.(alreadyTraversed := w.visited))
  }
}

=== FILE: assertifier_props.dfy ===
/**
  Properties of the Assertifier model: what a traversal emits for each value
  kind, how the already-traversed set suppresses repeated values, and the
  literal formats reading back as the values they stand for.
 */
module AssertifierProperties {
  import opened Options
  import Decimal
  import opened Assertifier

  // ---------------------------------------------------------------------
  // Literals

  /** Each literal written for an exempt value denotes that value. */
  lemma LiteralDenotesValue(v: Value)
    requires IsExempt(v)
    ensures v.IntegerValue? ==>
      var lit := Literal(v);
      && StartsWith(lit, "Integer.valueOf(") && lit[|lit| - 1] == ')'
      && Decimal.IsCanonicalInt(lit[16..|lit| - 1])
      && Decimal.ParseInt(lit[16..|lit| - 1]) == v.i
    ensures v.LongValue? ==>
      var lit := Literal(v);
      && StartsWith(lit, "Long.valueOf(") && lit[|lit| - 2..] == "L)"
      && Decimal.IsCanonicalInt(lit[13..|lit| - 2])
      && Decimal.ParseInt(lit[13..|lit| - 2]) == v.l
    ensures v.StringValue? ==>
      var lit := Literal(v);
      && |lit| == |v.s| + 2 && lit[0] == '"' && lit[|lit| - 1] == '"'
      && lit[1..|lit| - 1] == v.s
    ensures v.EnumValue? ==>
      Literal(v) == v.enumClass.simpleName + "." + v.constant
  {
    var lit := Literal(v);
    match v
    case IntegerValue(n) =>
      var digits := Decimal.IntToString(n);
      assert lit == "Integer.valueOf(" + digits + ")";
      assert lit[16..|lit| - 1] == digits;
      Decimal.IntRoundTrip(n);
    case LongValue(n) =>
      var digits := Decimal.IntToString(n);
      assert lit == "Long.valueOf(" + digits + "L)";
      assert lit[13..|lit| - 2] == digits;
      Decimal.IntRoundTrip(n);
    case StringValue(s) =>
    case EnumValue(_, _) =>
  }

  // ---------------------------------------------------------------------
  // The already-traversed set

  /**
    String, Integer, Long and Enum values are never in the set, so every
    occurrence emits its assertEquals line, however often the same value
    turns up.
   */
  lemma ExemptValueAlwaysEmits(cfg: Config, heap: Heap, visited: set<Key>, getter: Option<string>,
                               v: Value, path: string)
    requires Closed(heap) && IsExempt(v) && NoExemptKeys(visited)
    ensures ProcessResult(cfg, heap, visited, getter, v, path, false)
         == Walk(Emitted([AssertEquals(Literal(v), LeafPath(v, getter, path))]), visited)
  {
    assert KeyOf(heap, v) == ValueKey(v);
    assert ValueKey(v) !in visited;
  }

  /** Two getters returning the same String both get their assertion line. */
  lemma SameStringTwiceEmitsTwice(cfg: Config, heap: Heap, visited: set<Key>, s: string,
                                  first: string, second: string, path: string)
    requires Closed(heap) && NoExemptKeys(visited)
    ensures
      var w1 := ProcessResult(cfg, heap, visited, Some(first), StringValue(s), path, false);
      var w2 := ProcessResult(cfg, heap, w1.visited, Some(second), StringValue(s), path, false);
      && w1.outcome == Emitted([AssertEquals("\"" + s + "\"", path + "." + first + "()")])
      && w2.outcome == Emitted([AssertEquals("\"" + s + "\"", path + "." + second + "()")])
  {
    ExemptValueAlwaysEmits(cfg, heap, visited, Some(first), StringValue(s), path);
    ExemptValueAlwaysEmits(cfg, heap, visited, Some(second), StringValue(s), path);
  }

  /**
    Any other non-null value (Boolean, Date, list, composite) is put into the
    set when first reached, so reaching an equal value again later, through
    any getter, list position or as a root, emits nothing.
   */
  lemma RevisitIsSilent(cfg: Config, heap: Heap, visited: set<Key>, g1: Option<string>, v: Value,
                        p1: string, root1: bool, later: set<Key>, g2: Option<string>, v': Value,
                        p2: string, root2: bool)
    requires Closed(heap) && ValueIn(heap, v) && ValueIn(heap, v')
    requires v != Null && !IsExempt(v) && KeyOf(heap, v') == KeyOf(heap, v) && v' != Null
    requires ProcessResult(cfg, heap, visited, g1, v, p1, root1).visited <= later
    ensures ProcessResult(cfg, heap, later, g2, v', p2, root2) == Walk(Emitted([]), later)
  {
  }

  /** Two getters returning the same Boolean value: only the first gets a line. */
  lemma SecondEqualBooleanIsSilent(cfg: Config, heap: Heap, visited: set<Key>, b: bool,
                                   first: string, second: string, path: string)
    requires Closed(heap) && ValueKey(BooleanValue(b)) !in visited
    ensures
      var w1 := ProcessResult(cfg, heap, visited, Some(first), BooleanValue(b), path, false);
      var w2 := ProcessResult(cfg, heap, w1.visited, Some(second), BooleanValue(b), path, false);
      && w1.outcome == Emitted([AssertEquals("Boolean.valueOf(" + BoolToString(b) + ")",
                                             "Boolean.valueOf(" + path + "." + first + "())")])
      && w2.outcome == Emitted([])
  {
    var w1 := ProcessResult(cfg, heap, visited, Some(first), BooleanValue(b), path, false);
    assert "Boolean.valueOf(" + (path + "." + first + "()") + ")"
        == "Boolean.valueOf(" + path + "." + first + "())";
    RevisitIsSilent(cfg, heap, visited, Some(first), BooleanValue(b), path, false,
                    w1.visited, Some(second), BooleanValue(b), path, false);
  }

  /**
    The set lives as long as the instance: once assertify has run on a value
    that is not String, Integer, Long or Enum, running it again on an equal
    value prints nothing at all, not even the root's assertNotNull.
   */
  lemma SecondAssertifyIsSilent(a: Assertifier, heap: Heap, root: Value, name: string,
                                root': Value, name': string)
    requires Closed(heap) && ValueIn(heap, root) && ValueIn(heap, root')
    requires root != Null && !IsExempt(root) && root' != Null && KeyOf(heap, root') == KeyOf(heap, root)
    ensures
      var first := Assertify(a, heap, root, name);
      Assertify(first.after, heap, root', name') == Run(Text(""), first.after)
  {
  }

  // ---------------------------------------------------------------------
  // Paths and literals of getter results

  /**
    A relevant getter's fresh String, Integer, Long or Enum result: Integer
    and Long are compared at `((Integer)path.m())` and `((Long)path.m())`,
    String and Enum at the plain `path.m()`.
   */
  lemma ExemptResultShape(cfg: Config, heap: Heap, visited: set<Key>, m: Method, path: string)
    requires Closed(heap) && MethodIn(heap, m) && IsRelevantGetter(cfg.includeIds, m)
    requires IsExempt(Invoke(m)) && NoExemptKeys(visited)
    ensures var v, w := Invoke(m), GetterStep(cfg, heap, visited, m, path);
      var call := path + "." + m.name + "()";
      && w.visited == visited
      && (v.IntegerValue? ==> w.outcome == Emitted([AssertEquals(
            "Integer.valueOf(" + Decimal.IntToString(v.i) + ")", "((Integer)" + call + ")")]))
      && (v.LongValue? ==> w.outcome == Emitted([AssertEquals(
            "Long.valueOf(" + Decimal.IntToString(v.l) + "L)", "((Long)" + call + ")")]))
      && (v.StringValue? ==> w.outcome == Emitted([AssertEquals("\"" + v.s + "\"", call)]))
      && (v.EnumValue? ==> w.outcome == Emitted([AssertEquals(
            v.enumClass.simpleName + "." + v.constant, call)]))
  {
    var v := Invoke(m);
    var call := path + "." + m.name + "()";
    ExemptValueAlwaysEmits(cfg, heap, visited, Some(m.name), v, path);
    var w := GetterStep(cfg, heap, visited, m, path);
    assert w == ProcessResult(cfg, heap, visited, Some(m.name), v, path, false);
    assert PathPrimitive(Some(m.name), path) == call;
    CastPrefixes();
    match v
    case IntegerValue(_) =>
      assert LeafPath(v, Some(m.name), path) == "((" + "Integer" + ")" + call + ")";
    case LongValue(_) =>
      assert LeafPath(v, Some(m.name), path) == "((" + "Long" + ")" + call + ")";
    case StringValue(_) =>
    case EnumValue(_, _) =>
  }

  lemma CastPrefixes()
    ensures "((" + "Integer" + ")" == "((Integer)"
    ensures "((" + "Long" + ")" == "((Long)"
  {
  }

  /**
    A relevant getter's fresh Boolean result is compared as
    `Boolean.valueOf(b)` against `Boolean.valueOf(path.m())`, and a fresh
    Date emits nothing; both are marked as traversed.
   */
  lemma BooleanAndDateResultShape(cfg: Config, heap: Heap, visited: set<Key>, m: Method, path: string)
    requires Closed(heap) && MethodIn(heap, m) && IsRelevantGetter(cfg.includeIds, m)
    requires (Invoke(m).BooleanValue? || Invoke(m).DateValue?) && ValueKey(Invoke(m)) !in visited
    ensures var v, w := Invoke(m), GetterStep(cfg, heap, visited, m, path);
      && w.visited == visited + {ValueKey(v)}
      && (v.BooleanValue? ==> w.outcome == Emitted([AssertEquals(
            "Boolean.valueOf(" + BoolToString(v.b) + ")", "Boolean.valueOf(" + path + "." + m.name + "())")]))
      && (v.DateValue? ==> w.outcome == Emitted([]))
  {
    var v := Invoke(m);
    assert KeyOf(heap, v) == ValueKey(v);
    assert "Boolean.valueOf(" + (path + "." + m.name + "()") + ")"
        == "Boolean.valueOf(" + path + "." + m.name + "())";
  }

  /**
    A relevant getter's fresh list or composite result is marked, then
    traversed at `((SimpleName)path.m())`.
   */
  lemma ObjectResultShape(cfg: Config, heap: Heap, visited: set<Key>, m: Method, path: string)
    requires Closed(heap) && MethodIn(heap, m) && IsRelevantGetter(cfg.includeIds, m)
    requires Invoke(m).Object? && Invoke(m).ref in heap && KeyOf(heap, Invoke(m)) !in visited
    ensures var r := Invoke(m).ref;
      GetterStep(cfg, heap, visited, m, path)
      == Traverse(cfg, heap, visited + {KeyOf(heap, Object(r))}, r,
                  "((" + heap[r].cls.simpleName + ")" + path + "." + m.name + "()" + ")")
  {
    var r := Invoke(m).ref;
    assert "((" + heap[r].cls.simpleName + ")" + path + "." + m.name + "())"
        == "((" + heap[r].cls.simpleName + ")" + path + "." + m.name + "()" + ")";
  }

  // ---------------------------------------------------------------------
  // Null results and throwing getters

  lemma RenderOne(l: Line)
    ensures RenderAll([l]) == Render(l)
  {
    assert RenderAll([l]) == Render(l) + RenderAll([]);
  }

  lemma RenderTwo(l1: Line, l2: Line)
    ensures RenderAll([l1, l2]) == Render(l1) + Render(l2)
  {
    assert [l1, l2][1..] == [l2];
    RenderOne(l2);
  }

  /**
    A relevant getter that returns null, or throws, emits
    `Assert.assertNull(path.m());` when includeNull is set and nothing
    otherwise; nothing is added to the already-traversed set.
   */
  lemma NullResultLine(cfg: Config, heap: Heap, visited: set<Key>, m: Method, path: string)
    requires Closed(heap) && MethodIn(heap, m)
    requires IsRelevantGetter(cfg.includeIds, m)
    requires m.invocation == Throws || m.invocation == Returns(Null)
    ensures var w := GetterStep(cfg, heap, visited, m, path);
      && w.visited == visited
      && w.outcome == Emitted(if cfg.includeNull then [AssertNull(path + "." + m.name + "()")] else [])
      && RenderAll(w.outcome.lines)
         == if cfg.includeNull then "Assert.assertNull(" + (path + "." + m.name + "()") + ");\r\n" else ""
  {
    var call := path + "." + m.name + "()";
    var lines := BuildNull(cfg, call);
    assert Invoke(m) == Null;
    assert PathPrimitive(Some(m.name), path) == call;
    assert GetterStep(cfg, heap, visited, m, path) == Walk(Emitted(lines), visited);
    if cfg.includeNull {
      RenderOne(AssertNull(call));
      RenderText(call, "");
    }
  }

  /** A list or composite root not yet traversed is marked, then traversed at the unchanged name. */
  lemma RootObjectTraverse(cfg: Config, heap: Heap, visited: set<Key>, r: Ref, name: string)
    requires Closed(heap) && r in heap && KeyOf(heap, Object(r)) !in visited
    ensures ProcessResult(cfg, heap, visited, None, Object(r), name, false)
         == Traverse(cfg, heap, visited + {KeyOf(heap, Object(r))}, r, name)
  {
  }

  lemma ExemptRootLines(cfg: Config, heap: Heap, visited: set<Key>, v: Value, name: string)
    requires Closed(heap) && IsExempt(v) && NoExemptKeys(visited)
    ensures !(v != Null && KeyOf(heap, v) in visited)
    ensures ProcessResult(cfg, heap, visited, None, v, name, false)
         == Walk(Emitted([AssertEquals(Literal(v), name)]), visited)
  {
    assert KeyOf(heap, v) == ValueKey(v);
    ExemptValueAlwaysEmits(cfg, heap, visited, None, v, name);
  }

  /**
    A String, Integer, Long or Enum root prints its assertNotNull, then one
    assertEquals of its literal against the unchanged name.
   */
  lemma ExemptRootText(a: Assertifier, heap: Heap, v: Value, name: string)
    requires Closed(heap) && IsExempt(v) && NoExemptKeys(a.alreadyTraversed)
    ensures Assertify(a, heap, v, name).report
         == Text("Assert.assertNotNull(" + name + ");\r\n" + ("Assert.assertEquals(" + Literal(v) + ", " + name + ");\r\n"))
  {
    ExemptRootLines(a.config, heap, a.alreadyTraversed, v, name);
    RenderOne(AssertEquals(Literal(v), name));
    RenderText(name, Literal(v));
  }

  /** A null root still gets its assertNotNull, followed by assertNull when includeNull is set. */
  lemma NullRootText(a: Assertifier, heap: Heap, name: string)
    requires Closed(heap)
    ensures Assertify(a, heap, Null, name).report
         == Text("Assert.assertNotNull(" + name + ");\r\n"
                 + (if a.config.includeNull then "Assert.assertNull(" + name + ");\r\n" else ""))
  {
    var lines := [AssertNotNull(name)] + BuildNull(a.config, name);
    var w := ProcessResult(a.config, heap, a.alreadyTraversed, None, Null, name, true);
    assert LeafLines(a.config, None, Null, name) == BuildNull(a.config, name);
    assert w == Walk(Emitted(lines), a.alreadyTraversed);
    assert Assertify(a, heap, Null, name).report == Text(RenderAll(lines));
    RenderText(name, "");
    if a.config.includeNull {
      RenderTwo(AssertNotNull(name), AssertNull(name));
    } else {
      RenderOne(AssertNotNull(name));
    }
  }

  // ---------------------------------------------------------------------
  // Ignored and foreign classes

  /**
    After ignore(classes) an object of any listed class is skipped, whatever
    was skipped before still is, and nothing else starts being skipped.
   */
  lemma IgnoreSkips(a: Assertifier, classes: seq<ClassInfo>, node: Node)
    ensures node.cls in classes ==> IsSkipObject(Ignore(a, classes).config, node)
    ensures IsSkipObject(a.config, node) ==> IsSkipObject(Ignore(a, classes).config, node)
    ensures IsSkipObject(Ignore(a, classes).config, node) ==> IsSkipObject(a.config, node) || node.cls in classes
  {
  }

  /**
    An object whose class is ignored, or whose canonical name starts with
    "javax" or "com.sun.org", yields nothing for its whole subtree, yet is
    marked as traversed.
   */
  lemma SkippedSubtreeIsSilent(cfg: Config, heap: Heap, visited: set<Key>, getter: Option<string>,
                               r: Ref, path: string, root: bool)
    requires Closed(heap) && r in heap && IsSkipObject(cfg, heap[r])
    requires KeyOf(heap, Object(r)) !in visited
    ensures ProcessResult(cfg, heap, visited, getter, Object(r), path, root)
         == Walk(Emitted(if root then [AssertNotNull(path)] else []), visited + {KeyOf(heap, Object(r))})
  {
    var marked := visited + {KeyOf(heap, Object(r))};
    var body := Traverse(cfg, heap, marked, r, PathWithCast(getter, heap[r].cls.simpleName, path));
    assert body == Walk(Emitted([]), marked);
    assert [AssertNotNull(path)] + [] == [AssertNotNull(path)];
  }

  // ---------------------------------------------------------------------
  // Cycles

  /** Getters whose results have all been traversed already contribute nothing. */
  lemma {:induction false} TraversedGettersAreSilent(cfg: Config, heap: Heap, visited: set<Key>,
                                                     r: Ref, i: nat, path: string)
    requires Closed(heap) && r in heap && heap[r].CompositeNode? && i <= |heap[r].methods|
    requires forall j :: i <= j < |heap[r].methods| && IsRelevantGetter(cfg.includeIds, heap[r].methods[j]) ==>
               var v := Invoke(heap[r].methods[j]); v != Null && ValueIn(heap, v) && KeyOf(heap, v) in visited
    ensures TraverseGetters(cfg, heap, visited, r, i, path) == Walk(Emitted([]), visited)
    decreases |heap[r].methods| - i
  {
    if i < |heap[r].methods| {
      TraversedGettersAreSilent(cfg, heap, visited, r, i + 1, path);
    }
  }

  /**
    An object whose every relevant getter returns the object itself: the
    output is the root's assertNotNull alone; the cycle guard stops the walk.
   */
  lemma SelfReferenceAssertsOnlyRoot(a: Assertifier, heap: Heap, r: Ref, name: string)
    requires Closed(heap) && r in heap && heap[r].CompositeNode?
    requires KeyOf(heap, Object(r)) !in a.alreadyTraversed
    requires forall m :: m in heap[r].methods && IsRelevantGetter(a.config.includeIds, m) ==>
               Invoke(m) == Object(r)
    ensures Assertify(a, heap, Object(r), name).report == Text("Assert.assertNotNull(" + name + ");\r\n")
  {
    var marked := a.alreadyTraversed + {KeyOf(heap, Object(r))};
    if !IsSkipObject(a.config, heap[r]) {
      forall j | 0 <= j < |heap[r].methods| && IsRelevantGetter(a.config.includeIds, heap[r].methods[j])
        ensures Invoke(heap[r].methods[j]) == Object(r)
      {
        assert heap[r].methods[j] in heap[r].methods;
      }
      TraversedGettersAreSilent(a.config, heap, marked, r, 0, name);
    }
    var body := Traverse(a.config, heap, marked, r, name);
    assert body == Walk(Emitted([]), body.visited);
    assert [AssertNotNull(name)] + [] == [AssertNotNull(name)];
    assert RenderAll([AssertNotNull(name)]) == Render(AssertNotNull(name)) + RenderAll([]);
  }

  // ---------------------------------------------------------------------
  // Lists

  /** An empty list yields `Assert.assertEquals(0, path.size());` only under includeEmptyLists. */
  lemma EmptyListPolicy(cfg: Config, heap: Heap, visited: set<Key>, r: Ref, path: string)
    requires Closed(heap) && r in heap && heap[r].ListNode? && heap[r].elements == []
    requires !IsSkipObject(cfg, heap[r])
    ensures Traverse(cfg, heap, visited, r, path)
         == Walk(Emitted(if cfg.includeEmptyLists then [AssertEquals("0", path + ".size()")] else []), visited)
  {
    assert Decimal.IntToString(0) == "0";
    var w := TraverseElements(cfg, heap, visited, r, 0, path);
    assert w == Walk(Emitted([]), visited);
    assert SizeLine(cfg, 0, path) + [] == SizeLine(cfg, 0, path);
  }

  /** The index inside a list-entry path reads back as the element's position. */
  lemma PathListEntryIndex(path: string, i: nat, simpleName: string)
    ensures var head := "((" + simpleName + ")" + path + ".get(";
      var p := PathListEntry(path, i, simpleName);
      && |head| + 2 < |p| && p[..|head|] == head && p[|p| - 2..] == "))"
      && Decimal.IsCanonicalInt(p[|head|..|p| - 2])
      && Decimal.ParseInt(p[|head|..|p| - 2]) == i
  {
    var head := "((" + simpleName + ")" + path + ".get(";
    var digits := Decimal.IntToString(i);
    var p := PathListEntry(path, i, simpleName);
    assert p == head + digits + "))";
    assert p[..|head|] == head;
    assert p[|head|..|p| - 2] == digits;
    Decimal.IntRoundTrip(i);
  }

  /** The expected side of a list's size line reads back as the list's length. */
  lemma SizeLineDenotesSize(cfg: Config, size: nat, path: string)
    requires size > 0 || cfg.includeEmptyLists
    ensures |SizeLine(cfg, size, path)| == 1
    ensures Decimal.ParseInt(SizeLine(cfg, size, path)[0].expected) == size
    ensures SizeLine(cfg, size, path)[0].actual == path + ".size()"
  {
    Decimal.IntRoundTrip(size);
  }

  /** A null element anywhere from index i on makes the walk fail. */
  lemma {:induction false} NullElementFromFails(cfg: Config, heap: Heap, visited: set<Key>, r: Ref,
                                                i: nat, path: string, j: nat)
    requires Closed(heap) && r in heap && heap[r].ListNode?
    requires i <= j < |heap[r].elements| && heap[r].elements[j] == Null
    ensures TraverseElements(cfg, heap, visited, r, i, path).outcome.NullListElement?
    decreases j - i
  {
    var e := heap[r].elements[i];
    var all := TraverseElements(cfg, heap, visited, r, i, path);
    if e == Null {
      assert all.outcome == NullListElement(path, i);
    } else {
      assert i != j;
      var w := ProcessResult(cfg, heap, visited, None, e, PathListEntry(path, i, SimpleName(heap, e)), false);
      if w.outcome.NullListElement? {
        assert all == w;
      } else {
        NullElementFromFails(cfg, heap, w.visited, r, i + 1, path, j);
        var rest := TraverseElements(cfg, heap, w.visited, r, i + 1, path);
        assert all.outcome == Prefix(w.outcome.lines, rest.outcome);
      }
    }
  }

  /**
    A null list element has no runtime class to cast to: traversing a list
    holding one fails with a NullPointerException, and so does assertify
    on it.
   */
  lemma NullElementFails(a: Assertifier, heap: Heap, r: Ref, name: string, j: nat)
    requires Closed(heap) && r in heap && heap[r].ListNode? && !IsSkipObject(a.config, heap[r])
    requires KeyOf(heap, Object(r)) !in a.alreadyTraversed
    requires j < |heap[r].elements| && heap[r].elements[j] == Null
    ensures Assertify(a, heap, Object(r), name).report.RuntimeException?
  {
    var marked := a.alreadyTraversed + {KeyOf(heap, Object(r))};
    NullElementFromFails(a.config, heap, marked, r, 0, name, j);
    assert Traverse(a.config, heap, marked, r, name).outcome.NullListElement?;
  }

  /** The line the element at index j of an all-exempt list is compared with. */
  function ElementLine(heap: Heap, r: Ref, j: nat, path: string): Line
    requires r in heap && heap[r].ListNode? && j < |heap[r].elements| && IsExempt(heap[r].elements[j])
  {
    var e := heap[r].elements[j];
    AssertEquals(Literal(e), PathListEntry(path, j, SimpleName(heap, e)))
  }

  predicate AllExempt(elements: seq<Value>) {
    forall j :: 0 <= j < |elements| ==> IsExempt(elements[j])
  }

  /** An exempt element contributes its one line and leaves the visited set alone. */
  lemma ExemptElementStep(cfg: Config, heap: Heap, visited: set<Key>, r: Ref, i: nat, path: string)
    requires Closed(heap) && r in heap && heap[r].ListNode? && i < |heap[r].elements|
    requires IsExempt(heap[r].elements[i]) && NoExemptKeys(visited)
    ensures var rest := TraverseElements(cfg, heap, visited, r, i + 1, path);
      TraverseElements(cfg, heap, visited, r, i, path)
        == Walk(Prefix([ElementLine(heap, r, i, path)], rest.outcome), rest.visited)
  {
    var e := heap[r].elements[i];
    var entry := PathListEntry(path, i, SimpleName(heap, e));
    ExemptValueAlwaysEmits(cfg, heap, visited, None, e, entry);
  }

  /** The lines of the exempt elements from index `i` on, in list order. */
  function ElementLines(heap: Heap, r: Ref, i: nat, path: string): (lines: seq<Line>)
    requires r in heap && heap[r].ListNode? && i <= |heap[r].elements| && AllExempt(heap[r].elements)
    ensures |lines| == |heap[r].elements| - i
    ensures forall j :: i <= j < |heap[r].elements| ==> lines[j - i] == ElementLine(heap, r, j, path)
  {
    seq(|heap[r].elements| - i, k requires 0 <= k < |heap[r].elements| - i => ElementLine(heap, r, i + k, path))
  }

  /** The lines from index `i` on are element i's line, then the lines from i + 1 on. */
  lemma ElementLinesCons(heap: Heap, r: Ref, i: nat, path: string)
    requires r in heap && heap[r].ListNode? && i < |heap[r].elements| && AllExempt(heap[r].elements)
    ensures ElementLines(heap, r, i, path) == [ElementLine(heap, r, i, path)] + ElementLines(heap, r, i + 1, path)
  {
    var lines, rest := ElementLines(heap, r, i, path), ElementLines(heap, r, i + 1, path);
    forall k | 1 <= k < |lines|
      ensures lines[k] == rest[k - 1]
    {
      assert lines[k] == ElementLine(heap, r, i + k, path);
    }
  }

  lemma {:induction false} ExemptElementsFrom(cfg: Config, heap: Heap, visited: set<Key>, r: Ref,
                                              i: nat, path: string)
    requires Closed(heap) && r in heap && heap[r].ListNode? && i <= |heap[r].elements|
    requires AllExempt(heap[r].elements) && NoExemptKeys(visited)
    ensures TraverseElements(cfg, heap, visited, r, i, path) == Walk(Emitted(ElementLines(heap, r, i, path)), visited)
    decreases |heap[r].elements| - i
  {
    if i < |heap[r].elements| {
      ExemptElementStep(cfg, heap, visited, r, i, path);
      ExemptElementsFrom(cfg, heap, visited, r, i + 1, path);
      ElementLinesCons(heap, r, i, path);
    }
  }

  /**
    A list of String, Integer, Long and Enum values: the size line (when the
    list is non-empty or includeEmptyLists is set), then one assertEquals per
    element, in order, at `((SimpleName)path.get(i))`.
   */
  lemma ExemptListLines(cfg: Config, heap: Heap, visited: set<Key>, r: Ref, path: string)
    requires Closed(heap) && r in heap && heap[r].ListNode? && !IsSkipObject(cfg, heap[r])
    requires AllExempt(heap[r].elements) && NoExemptKeys(visited)
    ensures var w := Traverse(cfg, heap, visited, r, path);
      var n := |heap[r].elements|;
      var head := SizeLine(cfg, n, path);
      && w.visited == visited && w.outcome.Emitted?
      && |w.outcome.lines| == |head| + n
      && w.outcome.lines[..|head|] == head
      && (|head| == 1 <==> n > 0 || cfg.includeEmptyLists)
      && forall j :: 0 <= j < n ==> w.outcome.lines[|head| + j] == ElementLine(heap, r, j, path)
  {
    ExemptElementsFrom(cfg, heap, visited, r, 0, path);
  }

  /**
    A list that is not skipped starts with its size line (when the list is
    non-empty or includeEmptyLists is set); its elements' lines follow.
   */
  lemma ListStartsWithSizeLine(cfg: Config, heap: Heap, visited: set<Key>, r: Ref, path: string)
    requires Closed(heap) && r in heap && heap[r].ListNode? && !IsSkipObject(cfg, heap[r])
    ensures var w := Traverse(cfg, heap, visited, r, path);
      var head := SizeLine(cfg, |heap[r].elements|, path);
      var elements := TraverseElements(cfg, heap, visited, r, 0, path);
      && w.visited == elements.visited
      && (w.outcome.Emitted? <==> elements.outcome.Emitted?)
      && (w.outcome.Emitted? ==>
            && |head| <= |w.outcome.lines| && w.outcome.lines[..|head|] == head
            && w.outcome.lines[|head|..] == elements.outcome.lines)
  {
  }

  /**
    A list or composite element not yet traversed is marked first, then
    traversed at `((SimpleName)path.get(i))`; the remaining elements follow
    with it marked.
   */
  lemma ObjectElementStep(cfg: Config, heap: Heap, visited: set<Key>, r: Ref, i: nat, path: string)
    requires Closed(heap) && r in heap && heap[r].ListNode? && i < |heap[r].elements|
    requires heap[r].elements[i].Object? && KeyOf(heap, heap[r].elements[i]) !in visited
    ensures var e := heap[r].elements[i];
      var entry := PathListEntry(path, i, heap[e.ref].cls.simpleName);
      var t := Traverse(cfg, heap, visited + {KeyOf(heap, e)}, e.ref, entry);
      && ProcessResult(cfg, heap, visited, None, e, entry, false) == t
      && (t.outcome.NullListElement? ==> TraverseElements(cfg, heap, visited, r, i, path) == t)
      && (t.outcome.Emitted? ==>
            var rest := TraverseElements(cfg, heap, t.visited, r, i + 1, path);
            TraverseElements(cfg, heap, visited, r, i, path)
              == Walk(Prefix(t.outcome.lines, rest.outcome), rest.visited))
  {
  }

  /**
    A Boolean element not yet traversed yields
    `Boolean.valueOf(b)` against `Boolean.valueOf(((Boolean)path.get(i)))`
    and is marked; a Date element yields nothing and is marked. The
    remaining elements follow with it marked.
   */
  lemma BooleanAndDateElementStep(cfg: Config, heap: Heap, visited: set<Key>, r: Ref, i: nat, path: string)
    requires Closed(heap) && r in heap && heap[r].ListNode? && i < |heap[r].elements|
    requires var e := heap[r].elements[i]; (e.BooleanValue? || e.DateValue?) && ValueKey(e) !in visited
    ensures var e := heap[r].elements[i];
      var rest := TraverseElements(cfg, heap, visited + {ValueKey(e)}, r, i + 1, path);
      var lines := if e.BooleanValue?
        then [AssertEquals("Boolean.valueOf(" + BoolToString(e.b) + ")",
                           "Boolean.valueOf(" + PathListEntry(path, i, "Boolean") + ")")]
        else [];
      TraverseElements(cfg, heap, visited, r, i, path) == Walk(Prefix(lines, rest.outcome), rest.visited)
  {
    var e := heap[r].elements[i];
    assert KeyOf(heap, e) == ValueKey(e);
  }

  // ---------------------------------------------------------------------
  // Composite objects

  /** A getter whose result is null (or which throws) or a String, Integer, Long or Enum. */
  predicate LeafGetter(m: Method) {
    Invoke(m) == Null || IsExempt(Invoke(m))
  }

  /**
    What one such method contributes: nothing unless it is a relevant
    getter; else assertNull of `path.m()` under includeNull, or the
    assertEquals of the result's literal.
   */
  function GetterLine(cfg: Config, m: Method, path: string): seq<Line>
    requires LeafGetter(m)
  {
    if !IsRelevantGetter(cfg.includeIds, m) then []
    else if Invoke(m) == Null then BuildNull(cfg, path + "." + m.name + "()")
    else [AssertEquals(Literal(Invoke(m)), LeafPath(Invoke(m), Some(m.name), path))]
  }

  /** The getters' lines one after the other, in the order the methods are listed. */
  function GetterLines(cfg: Config, methods: seq<Method>, path: string): seq<Line>
    requires forall j :: 0 <= j < |methods| ==> LeafGetter(methods[j])
  {
    if |methods| == 0 then [] else GetterLine(cfg, methods[0], path) + GetterLines(cfg, methods[1..], path)
  }

  lemma LeafGetterStep(cfg: Config, heap: Heap, visited: set<Key>, m: Method, path: string)
    requires Closed(heap) && MethodIn(heap, m) && LeafGetter(m) && NoExemptKeys(visited)
    ensures GetterStep(cfg, heap, visited, m, path) == Walk(Emitted(GetterLine(cfg, m, path)), visited)
  {
    if IsRelevantGetter(cfg.includeIds, m) {
      if Invoke(m) == Null {
        NullResultLine(cfg, heap, visited, m, path);
      } else {
        ExemptValueAlwaysEmits(cfg, heap, visited, Some(m.name), Invoke(m), path);
      }
    }
  }

  /**
    From method i on, getters that all return null, throw, or return a
    String, Integer, Long or Enum contribute their lines in method order
    and leave the traversed set as it was.
   */
  lemma {:induction false} LeafGettersFrom(cfg: Config, heap: Heap, visited: set<Key>, r: Ref, i: nat, path: string)
    requires Closed(heap) && r in heap && heap[r].CompositeNode? && i <= |heap[r].methods|
    requires forall j :: i <= j < |heap[r].methods| ==> LeafGetter(heap[r].methods[j])
    requires NoExemptKeys(visited)
    ensures TraverseGetters(cfg, heap, visited, r, i, path)
         == Walk(Emitted(GetterLines(cfg, heap[r].methods[i..], path)), visited)
    decreases |heap[r].methods| - i
  {
    var methods := heap[r].methods;
    if i < |methods| {
      assert MethodIn(heap, methods[i]);
      LeafGetterStep(cfg, heap, visited, methods[i], path);
      LeafGettersFrom(cfg, heap, visited, r, i + 1, path);
      assert methods[i..][1..] == methods[i + 1..];
    }
  }

  /**
    A composite that is not skipped and whose getters all return null,
    throw, or return a String, Integer, Long or Enum yields each relevant
    getter's lines in the order the methods are listed.
   */
  lemma LeafCompositeLines(cfg: Config, heap: Heap, visited: set<Key>, r: Ref, path: string)
    requires Closed(heap) && r in heap && heap[r].CompositeNode? && !IsSkipObject(cfg, heap[r])
    requires forall j :: 0 <= j < |heap[r].methods| ==> LeafGetter(heap[r].methods[j])
    requires NoExemptKeys(visited)
    ensures Traverse(cfg, heap, visited, r, path) == Walk(Emitted(GetterLines(cfg, heap[r].methods, path)), visited)
  {
    LeafGettersFrom(cfg, heap, visited, r, 0, path);
    assert heap[r].methods[0..] == heap[r].methods;
  }
}

=== FILE: decimal.dfy ===
/**
  Decimal rendering of integers as Java's Integer.toString, Long.toString and
  String.valueOf(int) write them: an optional minus sign followed by the
  digits, most significant first, with no leading zeros.
 */
module Decimal {

  predicate IsDigit(c: char) {
    '0' <= c <= '9'
  }

  predicate AllDigits(s: string) {
    forall i :: 0 <= i < |s| ==> IsDigit(s[i])
  }

  /** A non-empty digit string without a superfluous leading zero. */
  predicate IsCanonicalNat(s: string) {
    |s| > 0 && AllDigits(s) && (|s| > 1 ==> s[0] != '0')
  }

  /** An optional minus sign before a canonical digit string; "-0" is not canonical. */
  predicate IsCanonicalInt(s: string) {
    if |s| > 0 && s[0] == '-' then IsCanonicalNat(s[1..]) && s[1..] != "0"
    else IsCanonicalNat(s)
  }

  function DigitChar(d: nat): (c: char)
    requires d < 10
    ensures IsDigit(c)
  {
    ('0' as int + d) as char
  }

  function DigitValue(c: char): (d: nat)
    requires IsDigit(c)
    ensures d < 10 && DigitChar(d) == c
  {
    c as int - '0' as int
  }

  function NatToString(n: nat): (s: string)
    ensures IsCanonicalNat(s)
    ensures n > 0 ==> s[0] != '0'
    decreases n
  {
    if n < 10 then [DigitChar(n)] else NatToString(n / 10) + [DigitChar(n % 10)]
  }

  function IntToString(n: int): (s: string)
    ensures IsCanonicalInt(s)
    ensures n < 0 <==> s[0] == '-'
  {
    if n < 0 then
      var digits := NatToString(-n);
      assert ("-" + digits)[1..] == digits;
      "-" + digits
    else NatToString(n)
  }

  /** The value of a digit string, read most significant digit first. */
  function ParseNat(s: string): nat
    requires AllDigits(s)
  {
    if |s| == 0 then 0 else ParseNat(s[..|s| - 1]) * 10 + DigitValue(s[|s| - 1])
  }

  function ParseInt(s: string): int
    requires IsCanonicalInt(s)
  {
    if s[0] == '-' then -(ParseNat(s[1..]) as int) else ParseNat(s)
  }

  lemma {:induction false} ParseNatToString(n: nat)
    ensures ParseNat(NatToString(n)) == n
    decreases n
  {
    var s := NatToString(n);
    if n >= 10 {
      ParseNatToString(n / 10);
      assert s[..|s| - 1] == NatToString(n / 10);
    }
  }

  lemma {:induction false} NatToStringParse(s: string)
    requires IsCanonicalNat(s)
    ensures NatToString(ParseNat(s)) == s
    decreases |s|
  {
    if |s| > 1 {
      var init := s[..|s| - 1];
      assert IsCanonicalNat(init) by {
        assert init[0] == s[0];
      }
      NatToStringParse(init);
      var p := ParseNat(init);
      var d := DigitValue(s[|s| - 1]);
      assert p > 0 by {
        ParseNatPositive(init);
      }
      assert (p * 10 + d) / 10 == p && (p * 10 + d) % 10 == d;
      assert s == init + [s[|s| - 1]];
    }
  }

  lemma {:induction false} ParseNatPositive(s: string)
    requires IsCanonicalNat(s) && s[0] != '0'
    ensures ParseNat(s) > 0
    decreases |s|
  {
    if |s| > 1 {
      var init := s[..|s| - 1];
      assert init[0] == s[0];
      ParseNatPositive(init);
    }
  }

  /** Reading back what IntToString writes gives the number again. */
  lemma IntRoundTrip(n: int)
    ensures ParseInt(IntToString(n)) == n
  {
    if n < 0 {
      assert IntToString(n)[1..] == NatToString(-n);
      ParseNatToString(-n);
    } else {
      ParseNatToString(n);
    }
  }

  /** Every canonical decimal string is what IntToString writes for its value. */
  lemma StringRoundTrip(s: string)
    requires IsCanonicalInt(s)
    ensures IntToString(ParseInt(s)) == s
  {
    if s[0] == '-' {
      NatToStringParse(s[1..]);
      ParseNatPositive(s[1..]);
      assert s == "-" + s[1..];
    } else {
      NatToStringParse(s);
    }
  }
}

=== FILE: jaql.dfy ===
/**
  JaQL: SQL-like grouping and joining of lists by a caller-supplied key.

  groupBy builds a map from key to the list of elements with that key;
  innerJoin and leftJoin group both sides and walk the left groups. The
  maps are HashMaps, whose iteration order Java leaves unspecified: here it
  is the parameter `order`, any duplicate-free enumeration of the left keys.
 */
module JaQL {
  import opened Options

  /** The elements of `s` whose key under `f` is `k`, in their order in `s`. */
  function Where<X, I(==)>(s: seq<X>, f: X -> I, k: I): (r: seq<X>)
    ensures |r| <= |s|
    ensures forall i :: 0 <= i < |r| ==> f(r[i]) == k
    ensures forall x :: x in r ==> x in s
  {
    if |s| == 0 then []
    else Where(s[..|s| - 1], f, k) + (if f(s[|s| - 1]) == k then [s[|s| - 1]] else [])
  }

  /** The elements of `s` whose key under `f` is not in `keys`, in their order in `s`. */
  function Outside<X, I(==)>(s: seq<X>, f: X -> I, keys: set<I>): (r: seq<X>)
    ensures |r| <= |s|
    ensures forall i :: 0 <= i < |r| ==> f(r[i]) !in keys
  {
    if |s| == 0 then []
    else Outside(s[..|s| - 1], f, keys) + (if f(s[|s| - 1]) !in keys then [s[|s| - 1]] else [])
  }

  /** The keys of the elements of `s`. */
  function KeySet<X, I(==)>(s: seq<X>, f: X -> I): set<I> {
    set i | 0 <= i < |s| :: f(s[i])
  }

  lemma KeySetSnoc<X, I>(s: seq<X>, f: X -> I)
    requires |s| > 0
    ensures KeySet(s, f) == KeySet(s[..|s| - 1], f) + {f(s[|s| - 1])}
  {
    var init := s[..|s| - 1];
    forall k | k in KeySet(s, f)
      ensures k in KeySet(init, f) + {f(s[|s| - 1])}
    {
      var i :| 0 <= i < |s| && f(s[i]) == k;
      if i < |s| - 1 {
        assert init[i] == s[i];
      }
    }
    forall k | k in KeySet(init, f)
      ensures k in KeySet(s, f)
    {
      var i :| 0 <= i < |init| && f(init[i]) == k;
      assert s[i] == init[i];
    }
  }

  /** No element carries a key outside KeySet. */
  lemma {:induction false} WhereOutsideKeys<X, I>(s: seq<X>, f: X -> I, k: I)
    requires k !in KeySet(s, f)
    ensures Where(s, f, k) == []
    decreases |s|
  {
    if |s| > 0 {
      KeySetSnoc(s, f);
      WhereOutsideKeys(s[..|s| - 1], f, k);
    }
  }

  /**
    groupBy: adding each element, in input order, to the end of the list
    under its key, creating the list on the key's first occurrence.
   */
  function GroupBy<T, I(==)>(objects: seq<T>, indexer: T -> I): (groups: map<I, seq<T>>)
    ensures groups.Keys == KeySet(objects, indexer)
    ensures forall k :: k in groups ==> groups[k] == Where(objects, indexer, k)
    decreases |objects|
  {
    if |objects| == 0 then map[]
    else
      var init := objects[..|objects| - 1];
      var curr := objects[|objects| - 1];
      var rest := GroupBy(init, indexer);
      var key := indexer(curr);
      var list := if key in rest then rest[key] else [];
      KeySetSnoc(objects, indexer);
      if key !in rest then WhereOutsideKeys(init, indexer, key); rest[key := list + [curr]]
      else rest[key := list + [curr]]
  }

  /** A row of a join; `right` is None where leftJoin found no partner (Java's null). */
  datatype Tuple<T, S, I> = Tuple(left: T, right: Option<S>, joinValue: I)

  function JoinValue<T, S, I>(t: Tuple<T, S, I>): I {
    t.joinValue
  }

  /** `l` paired with each of `rs`, in order. */
  function Pairs<T, S, I>(l: T, rs: seq<S>, k: I): (r: seq<Tuple<T, S, I>>)
    ensures forall t :: t in r ==> t.left == l && t.right.Some? && t.right.value in rs && t.joinValue == k
  {
    seq(|rs|, j requires 0 <= j < |rs| => Tuple(l, Some(rs[j]), k))
  }

  /** Every pair of `ls` and `rs`, left-major: all of `rs` with ls[0], then with ls[1], and so on. */
  function Cross<T, S, I>(ls: seq<T>, rs: seq<S>, k: I): (r: seq<Tuple<T, S, I>>)
    ensures |r| == |ls| * |rs|
    ensures forall i :: 0 <= i < |r| ==> r[i].joinValue == k && r[i].right.Some?
    ensures forall t :: t in r ==> t.left in ls && t.right.Some? && t.right.value in rs
    decreases |ls|
  {
    if |ls| == 0 then []
    else
      var rest := Cross(ls[1..], rs, k);
      assert |ls| * |rs| == |rs| + (|ls| - 1) * |rs|;
      Pairs(ls[0], rs, k) + rest
  }

  /** Each of `ls` with no partner. */
  function Pad<T, S, I>(ls: seq<T>, k: I): (r: seq<Tuple<T, S, I>>)
    ensures |r| == |ls|
    ensures forall t :: t in r ==> t.left in ls && t.right == None && t.joinValue == k
  {
    seq(|ls|, i requires 0 <= i < |ls| => Tuple(ls[i], None, k))
  }

  /**
    The tuples one left group contributes: its pairs with the right group of
    the same key; with no such right group, nothing for innerJoin and one
    unpartnered tuple per left element for leftJoin (`outer`).
   */
  function JoinBlock<T, S, I(==)>(leftMap: map<I, seq<T>>, rightMap: map<I, seq<S>>, k: I,
                                  outer: bool): seq<Tuple<T, S, I>>
    requires k in leftMap
  {
    if k in rightMap then Cross(leftMap[k], rightMap[k], k)
    else if outer then Pad(leftMap[k], k)
    else []
  }

  function Blocks<T, S, I(==)>(leftMap: map<I, seq<T>>, rightMap: map<I, seq<S>>,
                               outer: bool): (blocks: map<I, seq<Tuple<T, S, I>>>)
    ensures blocks.Keys == leftMap.Keys
  {
    map k | k in leftMap :: JoinBlock(leftMap, rightMap, k, outer)
  }

  /** The blocks of the keys in `order`, one after the other. */
  function Flatten<X, I(==)>(order: seq<I>, blocks: map<I, seq<X>>): seq<X>
    requires forall k :: k in order ==> k in blocks
  {
    if |order| == 0 then [] else blocks[order[0]] + Flatten(order[1..], blocks)
  }

  /** Everything in the flattened sequence comes from the block of some key in `order`. */
  lemma {:induction false} FlattenMember<X, I>(order: seq<I>, blocks: map<I, seq<X>>, x: X)
    requires forall k :: k in order ==> k in blocks
    requires x in Flatten(order, blocks)
    ensures exists k :: k in order && k in blocks && x in blocks[k]
    decreases |order|
  {
    if x !in blocks[order[0]] {
      FlattenMember(order[1..], blocks, x);
      var k :| k in order[1..] && k in blocks && x in blocks[k];
      assert k in order;
    }
  }

  predicate NoDuplicates<I(==)>(order: seq<I>) {
    forall i, j :: 0 <= i < j < |order| ==> order[i] != order[j]
  }

  /** `order` lists every key of `keys` exactly once: a possible HashMap iteration order. */
  predicate Enumerates<I(==)>(order: seq<I>, keys: set<I>) {
    && NoDuplicates(order)
    && (forall k :: k in order ==> k in keys)
    && (forall k :: k in keys ==> k in order)
  }

  /**
    `t` is a well-formed join row: its left element comes from `leftObjects`
    and carries the row's key, its right element (if any) comes from
    `rightObjects` and carries the same key, and it has no right element
    exactly when the join is outer and no right element has that key.
   */
  ghost predicate Joined<T, S, I>(t: Tuple<T, S, I>, leftObjects: seq<T>, rightObjects: seq<S>,
                                  joinOnLeft: T -> I, joinOnRight: S -> I, outer: bool) {
    && t.left in leftObjects && joinOnLeft(t.left) == t.joinValue
    && (t.right.Some? ==> t.right.value in rightObjects && joinOnRight(t.right.value) == t.joinValue)
    && (t.right.None? <==> outer && t.joinValue !in KeySet(rightObjects, joinOnRight))
  }

  function Join<T, S, I(==)>(leftObjects: seq<T>, rightObjects: seq<S>, joinOnLeft: T -> I,
                             joinOnRight: S -> I, order: seq<I>, outer: bool): (r: seq<Tuple<T, S, I>>)
    requires Enumerates(order, KeySet(leftObjects, joinOnLeft))
    ensures forall t :: t in r ==> Joined(t, leftObjects, rightObjects, joinOnLeft, joinOnRight, outer)
  {
    var rightMap := GroupBy(rightObjects, joinOnRight);
    var leftMap := GroupBy(leftObjects, joinOnLeft);
    var blocks := Blocks(leftMap, rightMap, outer);
    var r := Flatten(order, blocks);
    assert forall t :: t in r ==> Joined(t, leftObjects, rightObjects, joinOnLeft, joinOnRight, outer) by {
      forall t | t in r
        ensures Joined(t, leftObjects, rightObjects, joinOnLeft, joinOnRight, outer)
      {
        FlattenMember(order, blocks, t);
        var k :| k in order && k in blocks && t in blocks[k];
        assert t.left in leftMap[k];
        if t.right.Some? {
          assert t.right.value in rightMap[k];
          var i :| 0 <= i < |rightObjects| && rightObjects[i] == t.right.value;
          assert joinOnRight(rightObjects[i]) in KeySet(rightObjects, joinOnRight);
        }
      }
    }
    r
  }

  /** innerJoin: every row pairs a left and a right element with the row's key. */
  function InnerJoin<T, S, I(==)>(leftObjects: seq<T>, rightObjects: seq<S>, joinOnLeft: T -> I,
                                  joinOnRight: S -> I, order: seq<I>): (r: seq<Tuple<T, S, I>>)
    requires Enumerates(order, KeySet(leftObjects, joinOnLeft))
    ensures forall t :: t in r ==>
      && t.right.Some?
      && t.left in leftObjects && joinOnLeft(t.left) == t.joinValue
      && t.right.value in rightObjects && joinOnRight(t.right.value) == t.joinValue
  {
    Join(leftObjects, rightObjects, joinOnLeft, joinOnRight, order, false)
  }

  /**
    leftJoin: every row has a left element with the row's key and, when some
    right element has that key, a right element with it too; only keys
    missing on the right give rows without a partner.
   */
  function LeftJoin<T, S, I(==)>(leftObjects: seq<T>, rightObjects: seq<S>, joinOnLeft: T -> I,
                                 joinOnRight: S -> I, order: seq<I>): (r: seq<Tuple<T, S, I>>)
    requires Enumerates(order, KeySet(leftObjects, joinOnLeft))
    ensures forall t :: t in r ==> Joined(t, leftObjects, rightObjects, joinOnLeft, joinOnRight, true)
  {
    Join(leftObjects, rightObjects, joinOnLeft, joinOnRight, order, true)
  }
}

=== FILE: jaql_props.dfy ===
/**
  Properties of groupBy, innerJoin and leftJoin. Statements are per key or
  as multisets, so they hold for every iteration order of the HashMaps.
 */
module JaQLProperties {
  import opened Options
  import opened JaQL

  // ---------------------------------------------------------------------
  // Filtering by key

  lemma {:induction false} WhereAppend<X, I>(a: seq<X>, b: seq<X>, f: X -> I, k: I)
    ensures Where(a + b, f, k) == Where(a, f, k) + Where(b, f, k)
    decreases |b|
  {
    if |b| == 0 {
      assert a + b == a;
    } else {
      var init := b[..|b| - 1];
      assert (a + b)[..|a + b| - 1] == a + init;
      assert (a + b)[|a + b| - 1] == b[|b| - 1];
      WhereAppend(a, init, f, k);
    }
  }

  lemma {:induction false} OutsideAppend<X, I>(a: seq<X>, b: seq<X>, f: X -> I, keys: set<I>)
    ensures Outside(a + b, f, keys) == Outside(a, f, keys) + Outside(b, f, keys)
    decreases |b|
  {
    if |b| == 0 {
      assert a + b == a;
    } else {
      var init := b[..|b| - 1];
      assert (a + b)[..|a + b| - 1] == a + init;
      assert (a + b)[|a + b| - 1] == b[|b| - 1];
      OutsideAppend(a, init, f, keys);
    }
  }

  /** Filtering a sequence whose elements all carry key `k'`: all of it or nothing. */
  lemma {:induction false} WhereOfTagged<X, I>(s: seq<X>, f: X -> I, k': I, k: I)
    requires forall i :: 0 <= i < |s| ==> f(s[i]) == k'
    ensures Where(s, f, k) == if k == k' then s else []
    decreases |s|
  {
    if |s| > 0 {
      WhereOfTagged(s[..|s| - 1], f, k', k);
      assert s == s[..|s| - 1] + [s[|s| - 1]];
    }
  }

  /** Where keeps exactly the occurrences of elements with key `k`. */
  lemma {:induction false} WhereCount<X, I>(s: seq<X>, f: X -> I, k: I, x: X)
    ensures multiset(Where(s, f, k))[x] == if f(x) == k then multiset(s)[x] else 0
    decreases |s|
  {
    if |s| > 0 {
      var init, last := s[..|s| - 1], s[|s| - 1];
      WhereCount(init, f, k, x);
      assert s == init + [last];
      assert multiset(s) == multiset(init) + multiset([last]);
      assert Where(s, f, k) == Where(init, f, k) + (if f(last) == k then [last] else []);
    }
  }

  lemma {:induction false} OutsideCount<X, I>(s: seq<X>, f: X -> I, keys: set<I>, x: X)
    ensures multiset(Outside(s, f, keys))[x] == if f(x) !in keys then multiset(s)[x] else 0
    decreases |s|
  {
    if |s| > 0 {
      var init, last := s[..|s| - 1], s[|s| - 1];
      OutsideCount(init, f, keys, x);
      assert s == init + [last];
      assert multiset(s) == multiset(init) + multiset([last]);
      assert Outside(s, f, keys) == Outside(init, f, keys) + (if f(last) !in keys then [last] else []);
    }
  }

  /** Every key in KeySet has at least one element. */
  lemma {:induction false} WhereOfKeyNonEmpty<X, I>(s: seq<X>, f: X -> I, k: I)
    requires k in KeySet(s, f)
    ensures |Where(s, f, k)| > 0
    decreases |s|
  {
    KeySetSnoc(s, f);
    if f(s[|s| - 1]) != k {
      WhereOfKeyNonEmpty(s[..|s| - 1], f, k);
    }
  }

  /** The positions in `s` of the elements whose key is `k`, ascending. */
  function Positions<X, I(==)>(s: seq<X>, f: X -> I, k: I): seq<nat> {
    if |s| == 0 then []
    else Positions(s[..|s| - 1], f, k) + (if f(s[|s| - 1]) == k then [|s| - 1] else [])
  }

  /**
    Where keeps input order: its m-th element is s at the m-th of strictly
    increasing positions, and those positions are all of the ones with key `k`.
   */
  lemma {:induction false} WhereKeepsOrder<X, I>(s: seq<X>, f: X -> I, k: I)
    ensures var r, p := Where(s, f, k), Positions(s, f, k);
      && |p| == |r|
      && (forall m :: 0 <= m < |p| ==> p[m] < |s| && r[m] == s[p[m]])
      && (forall m, n :: 0 <= m < n < |p| ==> p[m] < p[n])
      && (forall i :: 0 <= i < |s| && f(s[i]) == k ==> i in p)
    decreases |s|
  {
    if |s| > 0 {
      var init := s[..|s| - 1];
      WhereKeepsOrder(init, f, k);
      var p0 := Positions(init, f, k);
      forall i | 0 <= i < |s| && f(s[i]) == k ensures i in Positions(s, f, k) {
        if i < |s| - 1 {
          assert init[i] == s[i];
          assert i in p0;
        }
      }
    }
  }

  // ---------------------------------------------------------------------
  // Concatenating per-key blocks

  /** Every element of block `k` carries key `k`. */
  ghost predicate Tagged<X, I>(blocks: map<I, seq<X>>, f: X -> I) {
    forall k, i :: k in blocks && 0 <= i < |blocks[k]| ==> f(blocks[k][i]) == k
  }

  lemma NoDuplicatesTail<I>(order: seq<I>)
    requires |order| > 0 && NoDuplicates(order)
    ensures NoDuplicates(order[1..]) && order[0] !in order[1..]
  {
    forall j | 0 <= j < |order[1..]| ensures order[1..][j] != order[0] {
      assert order[1..][j] == order[j + 1];
    }
  }

  /** Selecting key `k` from concatenated tagged blocks gives back block `k`. */
  lemma {:induction false} FlattenByKey<X, I>(order: seq<I>, blocks: map<I, seq<X>>, f: X -> I, k: I)
    requires NoDuplicates(order) && (forall k' :: k' in order ==> k' in blocks) && Tagged(blocks, f)
    ensures Where(Flatten(order, blocks), f, k) == if k in order then blocks[k] else []
    decreases |order|
  {
    if |order| > 0 {
      var head := order[0];
      NoDuplicatesTail(order);
      FlattenByKey(order[1..], blocks, f, k);
      WhereAppend(blocks[head], Flatten(order[1..], blocks), f, k);
      WhereOfTagged(blocks[head], f, head, k);
      if k == head {
        assert Where(Flatten(order[1..], blocks), f, k) == [];
        assert blocks[k] + [] == blocks[k];
      } else {
        assert k in order <==> k in order[1..];
      }
    }
  }

  /** The occurrences of `x` in concatenated tagged blocks are those in the block of its key. */
  lemma FlattenCount<X, I>(order: seq<I>, blocks: map<I, seq<X>>, f: X -> I, x: X)
    requires Enumerates(order, blocks.Keys) && Tagged(blocks, f)
    ensures multiset(Flatten(order, blocks))[x] == if f(x) in blocks then multiset(blocks[f(x)])[x] else 0
  {
    WhereCount(Flatten(order, blocks), f, f(x), x);
    FlattenByKey(order, blocks, f, f(x));
  }

  /** Sequences with the same occurrence counts are permutations of each other. */
  lemma SameCountsSameSize<X>(a: seq<X>, b: seq<X>)
    requires forall x :: multiset(a)[x] == multiset(b)[x]
    ensures multiset(a) == multiset(b) && |a| == |b|
  {
    assert multiset(a) == multiset(b);
    assert |multiset(a)| == |a|;
  }

  /** The contents of the concatenation do not depend on the order the keys are walked in. */
  lemma FlattenOrderIrrelevant<X, I>(o1: seq<I>, o2: seq<I>, blocks: map<I, seq<X>>, f: X -> I)
    requires Enumerates(o1, blocks.Keys) && Enumerates(o2, blocks.Keys) && Tagged(blocks, f)
    ensures multiset(Flatten(o1, blocks)) == multiset(Flatten(o2, blocks))
    ensures |Flatten(o1, blocks)| == |Flatten(o2, blocks)|
  {
    forall x ensures multiset(Flatten(o1, blocks))[x] == multiset(Flatten(o2, blocks))[x] {
      FlattenCount(o1, blocks, f, x);
      FlattenCount(o2, blocks, f, x);
    }
    SameCountsSameSize(Flatten(o1, blocks), Flatten(o2, blocks));
  }

  // ---------------------------------------------------------------------
  // groupBy

  /**
    Every input element is in the group of its own key, every group holds
    only elements of its key, and no group is empty.
   */
  lemma GroupByPlacement<T, I>(objects: seq<T>, indexer: T -> I)
    ensures var groups := GroupBy(objects, indexer);
      && (forall i :: 0 <= i < |objects| ==>
            indexer(objects[i]) in groups && objects[i] in groups[indexer(objects[i])])
      && (forall k, j :: k in groups && 0 <= j < |groups[k]| ==> indexer(groups[k][j]) == k)
      && (forall k :: k in groups ==> |groups[k]| > 0)
  {
    var groups := GroupBy(objects, indexer);
    forall i | 0 <= i < |objects|
      ensures indexer(objects[i]) in groups && objects[i] in groups[indexer(objects[i])]
    {
      var k := indexer(objects[i]);
      assert k in KeySet(objects, indexer);
      WhereCount(objects, indexer, k, objects[i]);
      assert objects[i] in multiset(objects);
    }
    forall k | k in groups ensures |groups[k]| > 0 {
      WhereOfKeyNonEmpty(objects, indexer, k);
    }
  }

  /** Within a group, elements appear in their input order. */
  lemma GroupByKeepsOrder<T, I>(objects: seq<T>, indexer: T -> I, k: I)
    requires k in GroupBy(objects, indexer)
    ensures var g, p := GroupBy(objects, indexer)[k], Positions(objects, indexer, k);
      && |p| == |g|
      && (forall m :: 0 <= m < |p| ==> p[m] < |objects| && g[m] == objects[p[m]])
      && (forall m, n :: 0 <= m < n < |p| ==> p[m] < p[n])
  {
    WhereKeepsOrder(objects, indexer, k);
  }

  /** Each group holds exactly the input occurrences of elements with its key. */
  lemma GroupByCount<T, I>(objects: seq<T>, indexer: T -> I, k: I, x: T)
    requires k in GroupBy(objects, indexer)
    ensures multiset(GroupBy(objects, indexer)[k])[x] == if indexer(x) == k then multiset(objects)[x] else 0
  {
    WhereCount(objects, indexer, k, x);
  }

  /** The groups, walked in any order of their keys, together are a permutation of the input. */
  lemma GroupByPartition<T, I>(objects: seq<T>, indexer: T -> I, order: seq<I>)
    requires Enumerates(order, GroupBy(objects, indexer).Keys)
    ensures multiset(Flatten(order, GroupBy(objects, indexer))) == multiset(objects)
  {
    var groups := GroupBy(objects, indexer);
    GroupByPlacement(objects, indexer);
    forall x ensures multiset(Flatten(order, groups))[x] == multiset(objects)[x] {
      GroupByCountOf(objects, indexer, order, x);
    }
    SameCountsSameSize(Flatten(order, groups), objects);
  }

  lemma GroupByCountOf<T, I>(objects: seq<T>, indexer: T -> I, order: seq<I>, x: T)
    requires Enumerates(order, GroupBy(objects, indexer).Keys)
    requires Tagged(GroupBy(objects, indexer), indexer)
    ensures multiset(Flatten(order, GroupBy(objects, indexer)))[x] == multiset(objects)[x]
  {
    var groups := GroupBy(objects, indexer);
    FlattenCount(order, groups, indexer, x);
    WhereCount(objects, indexer, indexer(x), x);
    if indexer(x) !in groups {
      WhereOutsideKeys(objects, indexer, indexer(x));
    }
  }

  // ---------------------------------------------------------------------
  // Arithmetic of left-major positions

  lemma MulMono(a: nat, b: nat, n: nat)
    requires a <= b
    ensures a * n <= b * n
  {
    assert b * n == a * n + (b - a) * n;
  }

  lemma MulZero(a: nat, b: nat)
    requires a == 0 || b == 0
    ensures a * b == 0
  {
  }

  lemma MulSucc(a: nat, b: nat)
    ensures (a + 1) * b == a * b + b
  {
  }

  lemma MulBound(i: nat, j: nat, m: nat, n: nat)
    requires i < m && j < n
    ensures i * n + j < m * n
  {
    MulMono(i + 1, m, n);
    assert (i + 1) * n == i * n + n;
  }

  // ---------------------------------------------------------------------
  // Joins

  /** The tuples of `ts` whose join value is `k`, in order. */
  function ByKey<T, S, I(==)>(ts: seq<Tuple<T, S, I>>, k: I): seq<Tuple<T, S, I>> {
    Where(ts, JoinValue, k)
  }

  lemma BlocksTagged<T, S, I>(leftMap: map<I, seq<T>>, rightMap: map<I, seq<S>>, outer: bool)
    ensures Tagged(Blocks(leftMap, rightMap, outer), JoinValue)
  {
  }

  /** Cross pairs ls[i] with rs[j] at position i * |rs| + j. */
  lemma {:induction false} CrossIsLeftMajor<T, S, I>(ls: seq<T>, rs: seq<S>, k: I, i: nat, j: nat)
    requires i < |ls| && j < |rs|
    ensures i * |rs| + j < |Cross(ls, rs, k)|
    ensures Cross(ls, rs, k)[i * |rs| + j] == Tuple(ls[i], Some(rs[j]), k)
    decreases i
  {
    MulBound(i, j, |ls|, |rs|);
    if i > 0 {
      CrossIsLeftMajor(ls[1..], rs, k, i - 1, j);
      assert i * |rs| == |rs| + (i - 1) * |rs|;
      assert Cross(ls, rs, k) == Pairs(ls[0], rs, k) + Cross(ls[1..], rs, k);
    }
  }

  lemma {:induction false} PairsCount<T, S, I>(l0: T, rs: seq<S>, k: I, l: T, s: S)
    ensures multiset(Pairs(l0, rs, k))[Tuple(l, Some(s), k)] == if l0 == l then multiset(rs)[s] else 0
    decreases |rs|
  {
    if |rs| > 0 {
      var init := rs[..|rs| - 1];
      PairsCount(l0, init, k, l, s);
      assert Pairs(l0, rs, k) == Pairs(l0, init, k) + [Tuple(l0, Some(rs[|rs| - 1]), k)];
      assert rs == init + [rs[|rs| - 1]];
    }
  }

  lemma MultisetHead<X>(s: seq<X>, x: X)
    requires |s| > 0
    ensures multiset(s)[x] == multiset(s[1..])[x] + if s[0] == x then 1 else 0
  {
    assert s == [s[0]] + s[1..];
  }

  lemma CrossHeadCount<T, S, I>(ls: seq<T>, rs: seq<S>, k: I, t: Tuple<T, S, I>)
    requires |ls| > 0
    ensures multiset(Cross(ls, rs, k))[t] == multiset(Pairs(ls[0], rs, k))[t] + multiset(Cross(ls[1..], rs, k))[t]
  {
    assert Cross(ls, rs, k) == Pairs(ls[0], rs, k) + Cross(ls[1..], rs, k);
  }

  /** A pair (l, s) occurs in Cross as often as l occurs in ls times as often as s occurs in rs. */
  lemma {:induction false} CrossCount<T, S, I>(ls: seq<T>, rs: seq<S>, k: I, l: T, s: S)
    ensures multiset(Cross(ls, rs, k))[Tuple(l, Some(s), k)] == multiset(ls)[l] * multiset(rs)[s]
    decreases |ls|
  {
    if |ls| > 0 {
      CrossHeadCount(ls, rs, k, Tuple(l, Some(s), k));
      CrossCount(ls[1..], rs, k, l, s);
      PairsCount(ls[0], rs, k, l, s);
      MultisetHead(ls, l);
      if ls[0] == l {
        MulSucc(multiset(ls[1..])[l], multiset(rs)[s]);
      }
    }
  }

  lemma CrossWithEmpty<T, S, I>(ls: seq<T>, k: I)
    ensures Cross<T, S, I>(ls, [], k) == []
  {
  }

  /** Pad holds one unpartnered tuple per occurrence in ls. */
  lemma {:induction false} PadCount<T, S, I>(ls: seq<T>, k: I, l: T)
    ensures multiset(Pad<T, S, I>(ls, k))[Tuple(l, None, k)] == multiset(ls)[l]
    decreases |ls|
  {
    if |ls| > 0 {
      var init := ls[..|ls| - 1];
      PadCount<T, S, I>(init, k, l);
      assert Pad<T, S, I>(ls, k) == Pad<T, S, I>(init, k) + [Tuple(ls[|ls| - 1], None, k)];
      assert ls == init + [ls[|ls| - 1]];
    }
  }

  /** The tuples of a join with key `k` are the block of the left group of `k`, or none at all. */
  lemma JoinByKey<T, S, I>(leftObjects: seq<T>, rightObjects: seq<S>, joinOnLeft: T -> I,
                           joinOnRight: S -> I, order: seq<I>, outer: bool, k: I)
    requires Enumerates(order, KeySet(leftObjects, joinOnLeft))
    ensures var leftMap := GroupBy(leftObjects, joinOnLeft);
      ByKey(Join(leftObjects, rightObjects, joinOnLeft, joinOnRight, order, outer), k)
      == if k in leftMap then JoinBlock(leftMap, GroupBy(rightObjects, joinOnRight), k, outer) else []
  {
    var leftMap := GroupBy(leftObjects, joinOnLeft);
    var rightMap := GroupBy(rightObjects, joinOnRight);
    BlocksTagged(leftMap, rightMap, outer);
    FlattenByKey(order, Blocks(leftMap, rightMap, outer), JoinValue, k);
  }

  /**
    innerJoin, key by key: the tuples with join value k are the left
    elements with key k, each paired with every right element with key k,
    left-major, both sides in input order.
   */
  lemma InnerJoinByKey<T, S, I>(leftObjects: seq<T>, rightObjects: seq<S>, joinOnLeft: T -> I,
                                joinOnRight: S -> I, order: seq<I>, k: I)
    requires Enumerates(order, KeySet(leftObjects, joinOnLeft))
    ensures ByKey(InnerJoin(leftObjects, rightObjects, joinOnLeft, joinOnRight, order), k)
         == Cross(Where(leftObjects, joinOnLeft, k), Where(rightObjects, joinOnRight, k), k)
  {
    JoinByKey(leftObjects, rightObjects, joinOnLeft, joinOnRight, order, false, k);
    var leftMap := GroupBy(leftObjects, joinOnLeft);
    var rightMap := GroupBy(rightObjects, joinOnRight);
    if k !in leftMap {
      WhereOutsideKeys(leftObjects, joinOnLeft, k);
    } else if k !in rightMap {
      WhereOutsideKeys(rightObjects, joinOnRight, k);
      CrossWithEmpty<T, S, I>(Where(leftObjects, joinOnLeft, k), k);
    }
  }

  /** Every innerJoin tuple has a partner, and joinOnLeft(left) == joinValue == joinOnRight(right). */
  lemma InnerJoinTuplesAgree<T, S, I>(leftObjects: seq<T>, rightObjects: seq<S>, joinOnLeft: T -> I,
                                      joinOnRight: S -> I, order: seq<I>)
    requires Enumerates(order, KeySet(leftObjects, joinOnLeft))
    ensures var ts := InnerJoin(leftObjects, rightObjects, joinOnLeft, joinOnRight, order);
      forall n :: 0 <= n < |ts| ==>
        && ts[n].right.Some?
        && joinOnLeft(ts[n].left) == ts[n].joinValue
        && joinOnRight(ts[n].right.value) == ts[n].joinValue
  {
    var ts := InnerJoin(leftObjects, rightObjects, joinOnLeft, joinOnRight, order);
    forall n | 0 <= n < |ts|
      ensures ts[n] in ts
    {
    }
  }

  /** The number of innerJoin tuples with key k is the product of the two sides' counts of k. */
  lemma InnerJoinKeySize<T, S, I>(leftObjects: seq<T>, rightObjects: seq<S>, joinOnLeft: T -> I,
                                  joinOnRight: S -> I, order: seq<I>, k: I)
    requires Enumerates(order, KeySet(leftObjects, joinOnLeft))
    ensures |ByKey(InnerJoin(leftObjects, rightObjects, joinOnLeft, joinOnRight, order), k)|
         == |Where(leftObjects, joinOnLeft, k)| * |Where(rightObjects, joinOnRight, k)|
  {
    InnerJoinByKey(leftObjects, rightObjects, joinOnLeft, joinOnRight, order, k);
  }

  /**
    A matching pair (l, r) is in innerJoin as often as l is on the left
    times as often as r is on the right; nothing else is.
   */
  lemma InnerJoinMultiplicity<T, S, I>(leftObjects: seq<T>, rightObjects: seq<S>, joinOnLeft: T -> I,
                                       joinOnRight: S -> I, order: seq<I>, l: T, r: S, k: I)
    requires Enumerates(order, KeySet(leftObjects, joinOnLeft))
    ensures multiset(InnerJoin(leftObjects, rightObjects, joinOnLeft, joinOnRight, order))[Tuple(l, Some(r), k)]
         == if joinOnLeft(l) == k && joinOnRight(r) == k
            then multiset(leftObjects)[l] * multiset(rightObjects)[r]
            else 0
  {
    var ts := InnerJoin(leftObjects, rightObjects, joinOnLeft, joinOnRight, order);
    var t := Tuple(l, Some(r), k);
    var ls, rs := Where(leftObjects, joinOnLeft, k), Where(rightObjects, joinOnRight, k);
    WhereCount(ts, JoinValue, k, t);
    InnerJoinByKey(leftObjects, rightObjects, joinOnLeft, joinOnRight, order, k);
    CrossCount(ls, rs, k, l, r);
    WhereCount(leftObjects, joinOnLeft, k, l);
    WhereCount(rightObjects, joinOnRight, k, r);
    var a, b := multiset(ls)[l], multiset(rs)[r];
    assert multiset(ts)[t] == a * b;
    if joinOnLeft(l) != k {
      MulZero(a, b);
    } else if joinOnRight(r) != k {
      MulZero(a, b);
    } else {
      assert a == multiset(leftObjects)[l] && b == multiset(rightObjects)[r];
    }
  }

  /** For keys present on the right, leftJoin has exactly the innerJoin tuples. */
  lemma LeftJoinMatchedKey<T, S, I>(leftObjects: seq<T>, rightObjects: seq<S>, joinOnLeft: T -> I,
                                    joinOnRight: S -> I, order: seq<I>, order': seq<I>, k: I)
    requires Enumerates(order, KeySet(leftObjects, joinOnLeft))
    requires Enumerates(order', KeySet(leftObjects, joinOnLeft))
    requires k in KeySet(rightObjects, joinOnRight)
    ensures ByKey(LeftJoin(leftObjects, rightObjects, joinOnLeft, joinOnRight, order), k)
         == ByKey(InnerJoin(leftObjects, rightObjects, joinOnLeft, joinOnRight, order'), k)
  {
    JoinByKey(leftObjects, rightObjects, joinOnLeft, joinOnRight, order, true, k);
    JoinByKey(leftObjects, rightObjects, joinOnLeft, joinOnRight, order', false, k);
  }

  /** For a key absent on the right, leftJoin has each left element of that key once, unpartnered. */
  lemma LeftJoinUnmatchedKey<T, S, I>(leftObjects: seq<T>, rightObjects: seq<S>, joinOnLeft: T -> I,
                                      joinOnRight: S -> I, order: seq<I>, k: I)
    requires Enumerates(order, KeySet(leftObjects, joinOnLeft))
    requires k !in KeySet(rightObjects, joinOnRight)
    ensures ByKey(LeftJoin(leftObjects, rightObjects, joinOnLeft, joinOnRight, order), k)
         == Pad(Where(leftObjects, joinOnLeft, k), k)
  {
    JoinByKey(leftObjects, rightObjects, joinOnLeft, joinOnRight, order, true, k);
    if k !in GroupBy(leftObjects, joinOnLeft) {
      WhereOutsideKeys(leftObjects, joinOnLeft, k);
    }
  }

  /**
    A left element whose key has no partner on the right is in leftJoin, with
    right = null and joinValue = its key, exactly as often as it is on the left.
   */
  lemma LeftJoinUnmatchedOnce<T, S, I>(leftObjects: seq<T>, rightObjects: seq<S>, joinOnLeft: T -> I,
                                       joinOnRight: S -> I, order: seq<I>, l: T)
    requires Enumerates(order, KeySet(leftObjects, joinOnLeft))
    requires joinOnLeft(l) !in KeySet(rightObjects, joinOnRight)
    ensures multiset(LeftJoin(leftObjects, rightObjects, joinOnLeft, joinOnRight, order))[Tuple(l, None, joinOnLeft(l))]
         == multiset(leftObjects)[l]
  {
    var k := joinOnLeft(l);
    var ts := LeftJoin(leftObjects, rightObjects, joinOnLeft, joinOnRight, order);
    WhereCount(ts, JoinValue, k, Tuple(l, None, k));
    LeftJoinUnmatchedKey(leftObjects, rightObjects, joinOnLeft, joinOnRight, order, k);
    PadCount<T, S, I>(Where(leftObjects, joinOnLeft, k), k, l);
    WhereCount(leftObjects, joinOnLeft, k, l);
  }

  /** The left groups that have no right group; the matched ones are emptied. */
  function UnmatchedGroups<T, S, I(==)>(leftMap: map<I, seq<T>>, rightMap: map<I, seq<S>>): map<I, seq<T>> {
    map k | k in leftMap :: if k in rightMap then [] else leftMap[k]
  }

  lemma {:induction false} JoinSizeSplit<T, S, I>(order: seq<I>, leftMap: map<I, seq<T>>, rightMap: map<I, seq<S>>)
    requires forall k :: k in order ==> k in leftMap
    ensures |Flatten(order, Blocks(leftMap, rightMap, true))|
         == |Flatten(order, Blocks(leftMap, rightMap, false))| + |Flatten(order, UnmatchedGroups(leftMap, rightMap))|
    decreases |order|
  {
    if |order| > 0 {
      JoinSizeSplit(order[1..], leftMap, rightMap);
    }
  }

  /** The unmatched groups, walked in any order, are a permutation of the unmatched left elements. */
  lemma UnmatchedGroupsSize<T, S, I>(leftObjects: seq<T>, rightObjects: seq<S>, joinOnLeft: T -> I,
                                     joinOnRight: S -> I, order: seq<I>)
    requires Enumerates(order, KeySet(leftObjects, joinOnLeft))
    ensures |Flatten(order, UnmatchedGroups(GroupBy(leftObjects, joinOnLeft), GroupBy(rightObjects, joinOnRight)))|
         == |Outside(leftObjects, joinOnLeft, KeySet(rightObjects, joinOnRight))|
  {
    var leftMap := GroupBy(leftObjects, joinOnLeft);
    var rightMap := GroupBy(rightObjects, joinOnRight);
    var unmatched := UnmatchedGroups(leftMap, rightMap);
    var outside := Outside(leftObjects, joinOnLeft, rightMap.Keys);
    GroupByPlacement(leftObjects, joinOnLeft);
    assert Tagged(unmatched, joinOnLeft);
    forall x ensures multiset(Flatten(order, unmatched))[x] == multiset(outside)[x] {
      FlattenCount(order, unmatched, joinOnLeft, x);
      OutsideCount(leftObjects, joinOnLeft, rightMap.Keys, x);
      WhereCount(leftObjects, joinOnLeft, joinOnLeft(x), x);
      if joinOnLeft(x) !in leftMap {
        WhereOutsideKeys(leftObjects, joinOnLeft, joinOnLeft(x));
      }
    }
    SameCountsSameSize(Flatten(order, unmatched), outside);
  }

  /**
    |leftJoin| = |innerJoin| + the number of left elements whose key is
    absent on the right, whatever order each call walks its keys in.
   */
  lemma LeftJoinSize<T, S, I>(leftObjects: seq<T>, rightObjects: seq<S>, joinOnLeft: T -> I,
                              joinOnRight: S -> I, order: seq<I>, order': seq<I>)
    requires Enumerates(order, KeySet(leftObjects, joinOnLeft))
    requires Enumerates(order', KeySet(leftObjects, joinOnLeft))
    ensures |LeftJoin(leftObjects, rightObjects, joinOnLeft, joinOnRight, order)|
         == |InnerJoin(leftObjects, rightObjects, joinOnLeft, joinOnRight, order')|
          + |Outside(leftObjects, joinOnLeft, KeySet(rightObjects, joinOnRight))|
  {
    var leftMap := GroupBy(leftObjects, joinOnLeft);
    var rightMap := GroupBy(rightObjects, joinOnRight);
    JoinSizeSplit(order, leftMap, rightMap);
    UnmatchedGroupsSize(leftObjects, rightObjects, joinOnLeft, joinOnRight, order);
    BlocksTagged(leftMap, rightMap, false);
    FlattenOrderIrrelevant(order, order', Blocks(leftMap, rightMap, false), JoinValue);
  }

  lemma {:induction false} FlattenOfEmptyBlocks<X, I>(order: seq<I>, blocks: map<I, seq<X>>)
    requires forall k :: k in order ==> k in blocks && blocks[k] == []
    ensures Flatten(order, blocks) == []
    decreases |order|
  {
    if |order| > 0 {
      FlattenOfEmptyBlocks(order[1..], blocks);
    }
  }

  /** With an empty right list, innerJoin is empty and leftJoin has one tuple per left element. */
  lemma EmptyRight<T, S, I>(leftObjects: seq<T>, joinOnLeft: T -> I, joinOnRight: S -> I,
                            order: seq<I>, order': seq<I>)
    requires Enumerates(order, KeySet(leftObjects, joinOnLeft))
    requires Enumerates(order', KeySet(leftObjects, joinOnLeft))
    ensures InnerJoin(leftObjects, [], joinOnLeft, joinOnRight, order) == []
    ensures |LeftJoin(leftObjects, [], joinOnLeft, joinOnRight, order')| == |leftObjects|
  {
    var leftMap := GroupBy(leftObjects, joinOnLeft);
    var rightMap := GroupBy([], joinOnRight);
    assert rightMap == map[];
    FlattenOfEmptyBlocks(order, Blocks(leftMap, rightMap, false));
    LeftJoinSize(leftObjects, [], joinOnLeft, joinOnRight, order', order);
    assert KeySet([], joinOnRight) == {};
    OutsideNone(leftObjects, joinOnLeft);
  }

  lemma {:induction false} OutsideNone<X, I>(s: seq<X>, f: X -> I)
    ensures Outside(s, f, {}) == s
    decreases |s|
  {
    if |s| > 0 {
      OutsideNone(s[..|s| - 1], f);
      assert s == s[..|s| - 1] + [s[|s| - 1]];
    }
  }
}

=== FILE: options.dfy ===
/** An optional value, standing for a Java reference that may be null. */
module Options {

  datatype Option<+T> = None | Some(value: T)

}
